=== FILE: README.md ===
# TeamSteady lead-funnel bot, modelled in Dafny

TeamSteady's Telegram bot walks a prospective copy-trading client through a
funnel: start, account created ("done"), "verified", "funded", "copied". The
repository holds the bot at two points in its history, and this project
models the logic of both:

- `TeamSteady_GitHub_Repo_Package_v3/teamsteady_bot_enhanced.py` keeps its leads in a JSON file (module
  `JsonFunnel`, `json_funnel.dfy`).
  - `tag_lead` does a read-modify-write of the file.
  - `start` queues three follow-up reminders.
  - Each follow-up checks the lead's stage before it sends.
  - `on_text` and `on_button` move leads through the funnel.
  - `stats` counts leads per stage.
- `teamsteady_bot_enhanced.py` keeps its leads in a Postgres table (module `PgFunnel`,
  `pg_funnel.dfy`).
  - `upsert_lead` inserts a row or updates it with `COALESCE`, and `get_lead` reads a chat's strategy.
  - `start` parses a referral argument into a source and a strategy.
  - `choose_strategy` and `copied` record the chat's choice.
  - `main` routes button presses to handlers with regular expressions.

`PyStr` (`pystr.dfy`) models the Python string builtins the handlers rely
on: `strip()`, `lower()`, the substring test `in` and `str(int)`. `Wrappers`
(`wrappers.dfy`) holds `Option`, which stands for both Python's `None` and
SQL's NULL.

The shape of the model:

- Stores that the source changes in place are classes:
  - the leads file is `LeadFile.leads`;
  - the job queue is `JobQueue.jobs`;
  - the Postgres table is `LeadsTable.rows`.
- Each method on them is specified by a pure function of the old state: `TaggedLead`, `ReminderPlan` and `Upserted`.
- Properties are proved as lemmas about those functions.
- The `stats` loop of the JSON bot is a method with loop invariants, over a snapshot of the file.
- Chat ids are integers. Both sources key their store by `str(chat_id)`, which is injective (`PyStr.IntToStringInjective`), so keying by the integer loses nothing.
- Clock readings are an integer `now` parameter. Outgoing messages are abstract reply tags.

## Model

| member | source | states |
|---|---|---|
| JsonFunnel.Lookup | TeamSteady_GitHub_Repo_Package_v3/teamsteady_bot_enhanced.py:66 | `leads.get(str(chat_id))` is present exactly when the chat has a record, and is that record |
| JsonFunnel.TaggedLead | TeamSteady_GitHub_Repo_Package_v3/teamsteady_bot_enhanced.py:63-69 | `last_touch` is `now`; `first_seen` is the old record's, or `now` for a new chat; a non-empty stage replaces the old one; an empty stage keeps the old one, gives "start" when the record has no stage key, and stays "" on a new record |
| JsonFunnel.LeadFile.TagLead | TeamSteady_GitHub_Repo_Package_v3/teamsteady_bot_enhanced.py:63-70 | the file afterwards is the old file with exactly this chat's record replaced by `TaggedLead` of the old record; the key set grows by this chat only, and every other record is unchanged |
| JsonFunnel.TagTwice | TeamSteady_GitHub_Repo_Package_v3/teamsteady_bot_enhanced.py:66-68 | two tags in a row keep the first sighting, and leave the later stage and the later time |
| JsonFunnel.TagKeepsTouchOrder | TeamSteady_GitHub_Repo_Package_v3/teamsteady_bot_enhanced.py:65-68 | with a clock that does not go backwards, `first_seen <= last_touch` is preserved |
| JsonFunnel.NamePrefix | TeamSteady_GitHub_Repo_Package_v3/teamsteady_bot_enhanced.py:88-92 | every job-name prefix is five characters; it is "fu30_" exactly for the 30-minute job, "fu24_" exactly for the 24-hour job and "fu72_" exactly for the 72-hour job |
| JsonFunnel.JobName | TeamSteady_GitHub_Repo_Package_v3/teamsteady_bot_enhanced.py:88-92 | a job name is its kind's five-character prefix followed by `str(chat_id)`, which is never empty |
| JsonFunnel.Delay | TeamSteady_GitHub_Repo_Package_v3/teamsteady_bot_enhanced.py:88-92 | the 30 min job waits 1800 s, the 24 h job 86400 s and the 72 h job 259200 s, and no two kinds share a delay |
| JsonFunnel.ReminderPlan | TeamSteady_GitHub_Repo_Package_v3/teamsteady_bot_enhanced.py:86-92 | `start` queues exactly three jobs for the chat; each carries its kind's delay and the name `fu30_`/`fu24_`/`fu72_` followed by the chat id |
| JsonFunnel.JobNameInjective | TeamSteady_GitHub_Repo_Package_v3/teamsteady_bot_enhanced.py:88-92 | a job name determines both the kind of reminder and the chat |
| JsonFunnel.ReminderPlanShape | TeamSteady_GitHub_Repo_Package_v3/teamsteady_bot_enhanced.py:88-92 | the delays are 1800 s, 86400 s and 259200 s; two planned jobs share a name only if they are the same job of the same chat |
| JsonFunnel.JobQueue.RunOnce | TeamSteady_GitHub_Repo_Package_v3/teamsteady_bot_enhanced.py:88 | `run_once` appends one job and removes none |
| JsonFunnel.RestartDuplicatesReminders | TeamSteady_GitHub_Repo_Package_v3/teamsteady_bot_enhanced.py:86-92 | a second `start` cancels nothing: earlier jobs stay, and each reminder of the chat is queued twice under the same name |
| JsonFunnel.Sends30m | TeamSteady_GitHub_Repo_Package_v3/teamsteady_bot_enhanced.py:98 | the 30 min follow-up sends only to a chat with a record that has a stage, and then exactly when that stage is "start" |
| JsonFunnel.Sends24h | TeamSteady_GitHub_Repo_Package_v3/teamsteady_bot_enhanced.py:107 | the 24 h follow-up sends only to a chat with a record that has a stage, and then exactly when that stage is "start" or "done" |
| JsonFunnel.Sends72h | TeamSteady_GitHub_Repo_Package_v3/teamsteady_bot_enhanced.py:115 | the 72 h follow-up sends only to a chat with a record that has a stage, and then exactly when that stage is "start", "done" or "verified" |
| JsonFunnel.FiresMessage | TeamSteady_GitHub_Repo_Package_v3/teamsteady_bot_enhanced.py:95-118 | a job firing for a chat without a record sends nothing; for a chat with one it sends exactly when the stored stage is in its kind's stage set |
| JsonFunnel.GuardsAreStageMembership | TeamSteady_GitHub_Repo_Package_v3/teamsteady_bot_enhanced.py:95-118 | the 30 min, 24 h and 72 h follow-ups send exactly when the stored stage is in {start}, {start, done} or {start, done, verified}; a chat with no record never gets one |
| JsonFunnel.GuardsNest | TeamSteady_GitHub_Repo_Package_v3/teamsteady_bot_enhanced.py:98-115 | whenever an earlier reminder would send, the later ones would too |
| JsonFunnel.ProgressSilencesReminders | TeamSteady_GitHub_Repo_Package_v3/teamsteady_bot_enhanced.py:95-118 | after tagging "done", "verified", "funded" or "copied", the 30 min reminder stays silent; the 24 h one sends only after "done"; the 72 h one sends only after "done" or "verified" |
| JsonFunnel.Start | TeamSteady_GitHub_Repo_Package_v3/teamsteady_bot_enhanced.py:74-92 | tags the chat "start", appends exactly the three planned jobs to the queue, and answers with the welcome |
| JsonFunnel.Normalize | TeamSteady_GitHub_Repo_Package_v3/teamsteady_bot_enhanced.py:155 | `(text or '').strip().lower()` is empty for a message without text, has no whitespace at either end and no upper-case ASCII letter |
| JsonFunnel.Keyword | TeamSteady_GitHub_Repo_Package_v3/teamsteady_bot_enhanced.py:156-169 | normalised text is a stage mark exactly for "done", "verified" and "funded" (with that stage), and a restart exactly for "start" and "/start" |
| JsonFunnel.ClassifyText | TeamSteady_GitHub_Repo_Package_v3/teamsteady_bot_enhanced.py:155-172 | after `strip().lower()`, the text is a stage mark exactly for "done"/"verified"/"funded" (that stage), a restart exactly for "start"/"/start", and unrecognised otherwise |
| JsonFunnel.ClassifyIgnoresPaddingAndCase | TeamSteady_GitHub_Repo_Package_v3/teamsteady_bot_enhanced.py:155 | surrounding whitespace and upper-case letters do not change how a text is classified |
| JsonFunnel.NormalizeIdempotent | TeamSteady_GitHub_Repo_Package_v3/teamsteady_bot_enhanced.py:155 | normalising twice is normalising once, and normalised text classifies like the original text |
| JsonFunnel.NoTextIsUnrecognized | TeamSteady_GitHub_Repo_Package_v3/teamsteady_bot_enhanced.py:155 | a message without text (`None or ''`) is unrecognised |
| JsonFunnel.MarkReply | TeamSteady_GitHub_Repo_Package_v3/teamsteady_bot_enhanced.py:158-167 | "done" answers with the verification step, "verified" with the funding step, "funded" with the copy-trading step |
| JsonFunnel.RunTextCommand | TeamSteady_GitHub_Repo_Package_v3/teamsteady_bot_enhanced.py:156-172 | a stage mark tags that stage (from any earlier stage), leaves the queue alone and gives that step's reply; a restart does all of `start`; an unrecognised text leaves the file and the queue unchanged and answers with the fallback |
| JsonFunnel.OnText | TeamSteady_GitHub_Repo_Package_v3/teamsteady_bot_enhanced.py:153-172 | the same three outcomes, chosen by how the message's text classifies after `strip().lower()` |
| JsonFunnel.ClassifyButton | TeamSteady_GitHub_Repo_Package_v3/teamsteady_bot_enhanced.py:121-150 | callback data is ignored exactly when it is none of onb1, info, copy, agent, back |
| JsonFunnel.ButtonStage | TeamSteady_GitHub_Repo_Package_v3/teamsteady_bot_enhanced.py:123-141 | a button writes a stage exactly when it is "onb1" (stage "start") or "copy" (stage "copied") |
| JsonFunnel.ButtonWrites | TeamSteady_GitHub_Repo_Package_v3/teamsteady_bot_enhanced.py:123-147 | only "onb1" writes stage "start", only "copy" writes stage "copied", and every other button writes nothing |
| JsonFunnel.OnButton | TeamSteady_GitHub_Repo_Package_v3/teamsteady_bot_enhanced.py:121-150 | "onb1" and "copy" tag their stage; info, agent, back and unknown data leave the file unchanged; onb1, info, copy, agent and back show the create-account, how-it-works, copy-link, support and main-menu screens; unknown data shows none |
| JsonFunnel.CountedStage | TeamSteady_GitHub_Repo_Package_v3/teamsteady_bot_enhanced.py:183 | a lead is counted under its stored stage, or under "start" when its record has no stage |
| JsonFunnel.SumOfBuckets | TeamSteady_GitHub_Repo_Package_v3/teamsteady_bot_enhanced.py:181-183 | stage buckets with disjoint members add up to the number of leads whose stage is one of the buckets' keys |
| JsonFunnel.TallyStart | TeamSteady_GitHub_Repo_Package_v3/teamsteady_bot_enhanced.py:181 | the five zero buckets are the tally of no leads |
| JsonFunnel.TallyStep | TeamSteady_GitHub_Repo_Package_v3/teamsteady_bot_enhanced.py:182-183 | one turn of the counting loop turns the tally of the leads counted so far into the tally with one more lead |
| JsonFunnel.BucketGrows | TeamSteady_GitHub_Repo_Package_v3/teamsteady_bot_enhanced.py:183 | counting a lead adds it to the bucket of its own stage (a missing stage counts as "start") and to no other |
| JsonFunnel.TalliedIsStageCounts | TeamSteady_GitHub_Repo_Package_v3/teamsteady_bot_enhanced.py:179-183 | once every lead has been counted, the loop's buckets are exactly the intended counts |
| JsonFunnel.StageCountsMeaning | TeamSteady_GitHub_Repo_Package_v3/teamsteady_bot_enhanced.py:181-183 | the counts hold the five funnel stages and exactly those other stages some lead is at; each holds the number of leads counted under it, where a record without a stage counts as "start" |
| JsonFunnel.StageCountsSum | TeamSteady_GitHub_Repo_Package_v3/teamsteady_bot_enhanced.py:180-183 | every lead is counted exactly once: the counts add up to the number of leads |
| JsonFunnel.StatsRestricted | TeamSteady_GitHub_Repo_Package_v3/teamsteady_bot_enhanced.py:176 | `stats` is restricted exactly when an owner id is set and the caller is someone else; with no owner id everyone may ask |
| JsonFunnel.Stats | TeamSteady_GitHub_Repo_Package_v3/teamsteady_bot_enhanced.py:175-183 | restricted exactly when an owner id is set and the caller is someone else; otherwise `total` is the number of leads and the buckets the loop builds are exactly `StageCounts` (whose meaning and sum are the two lemmas above) |
| PgFunnel.Upserted | teamsteady_bot_enhanced.py:59-81 | a new chat gets one row with `first_seen == last_touch == now` and the arguments stored as given, `None` included; an existing row keeps `first_seen`, gets `last_touch == now`, and changes a column only when its argument is not `None`; no other row changes and the key set grows by this chat only |
| PgFunnel.Coalesce | teamsteady_bot_enhanced.py:76-79 | `COALESCE(new, old)` is NULL only when both are; a non-NULL new value wins, even the empty string; otherwise the old value stays |
| PgFunnel.LeadsTable.UpsertLead | teamsteady_bot_enhanced.py:59-85 | the look-up followed by INSERT or UPDATE leaves exactly the table `Upserted` describes |
| PgFunnel.GetLead | teamsteady_bot_enhanced.py:87-94 | the stored strategy of the chat, or `None` when the chat has no row |
| PgFunnel.GetLeadAfterUpsert | teamsteady_bot_enhanced.py:76-94 | after an upsert, `get_lead` returns the new strategy if one was supplied and the old one otherwise; for other chats it returns what it did before |
| PgFunnel.UpsertKeepsTouchOrder | teamsteady_bot_enhanced.py:62-75 | with a clock that does not go backwards, `first_seen <= last_touch` is preserved |
| PgFunnel.CoalescingLaw | teamsteady_bot_enhanced.py:59-81 | after any non-empty sequence of upserts of one chat, each of stage, source, name and strategy holds the last non-`None` value supplied for it, or the earlier value if none was supplied; `first_seen` is the original row's or the first call's time; `last_touch` is the last call's time |
| PgFunnel.ApplyAllFrame | teamsteady_bot_enhanced.py:73-81 | upserts of one chat never create, drop or change another chat's row |
| PgFunnel.StrategiesContents | teamsteady_bot_enhanced.py:100-113 | `STRATEGIES` has exactly the keys "st50" and "st500", named "Steady Trading 50" (accounts under $500) and "Steady Trading 500" (accounts over $500) |
| PgFunnel.ParseReferral | teamsteady_bot_enhanced.py:126-134 | no argument gives source "organic" and no strategy. Otherwise, on the lower-cased first argument: source is "tiktok" exactly when it contains "tiktok", and "meta" exactly when it contains "meta" but not "tiktok"; strategy is "st500" exactly when it contains "st500", "st50" exactly when it contains "st50" but not "st500", and none exactly when it does not contain "st50"; a strategy it yields is always a key of `STRATEGIES` |
| PgFunnel.MissingCharNotContained | teamsteady_bot_enhanced.py:131-134 | a string lacking one of the characters of a tag does not contain the tag |
| PgFunnel.KelvinSignReferral | teamsteady_bot_enhanced.py:130-132 | `/start TI\u212aTO\u212a` (with the KELVIN SIGN) sets source "tiktok", since `lower()` turns that sign into `k` |
| PgFunnel.StartArgs | teamsteady_bot_enhanced.py:136 | `start` upserts stage "start", a source that is "organic", "meta" or "tiktok", the first name, and a strategy that is absent or a key of `STRATEGIES`; with no argument, source "organic" and no strategy |
| PgFunnel.Start | teamsteady_bot_enhanced.py:121-147 | upserts stage "start", the parsed source, the first name and the parsed strategy, then asks for the account size |
| PgFunnel.StartRow | teamsteady_bot_enhanced.py:126-136 | after `start`, the row has stage "start", the parsed source (never `None`) and the first name; its strategy is the parsed one, or the stored one when the argument names none; an argument-less `start` resets the source to "organic" and keeps the strategy |
| PgFunnel.ParseSt500Meta | teamsteady_bot_enhanced.py:129-134 | the argument `st500_meta` parses to source "meta" and strategy "st500" |
| PgFunnel.StartScenarioSt500Meta | teamsteady_bot_enhanced.py:126-136 | a new user arriving with `/start st500_meta` gets the row (now, now, "start", "meta", first name, "st500") |
| PgFunnel.ChooseArgs | teamsteady_bot_enhanced.py:155 | `choose_strategy` upserts stage "strategy_selected" and the chosen strategy, and passes no source or name |
| PgFunnel.ChooseStrategy | teamsteady_bot_enhanced.py:149-168 | for a key of `STRATEGIES`, upserts stage "strategy_selected" with that strategy and shows that strategy's details |
| PgFunnel.CopiedArgs | teamsteady_bot_enhanced.py:175 | `copied` upserts stage "copied" and passes nothing else |
| PgFunnel.Copied | teamsteady_bot_enhanced.py:170-181 | upserts stage "copied" with nothing else, and confirms |
| PgFunnel.CopiedNeedsNoStrategy | teamsteady_bot_enhanced.py:175 | "copied" is recorded whether or not a strategy was ever chosen, and the stored strategy (possibly none) stays |
| PgFunnel.DollarMatch | teamsteady_bot_enhanced.py:195 | `re.match("^w$", data)` holds exactly when `data` starts with `w` and then either ends or has only a final newline left |
| PgFunnel.RouteAsWritten | teamsteady_bot_enhanced.py:195-196 | under `re.match`, the two alternatives `^st50$` and `^st500$` admit exactly "st50", "st500", "st50\n" and "st500\n"; `^copied$` admits exactly "copied" and "copied\n" |
| PgFunnel.ChooseStrategyAsWritten | teamsteady_bot_enhanced.py:153-157 | the upsert commits before the `STRATEGIES` look-up, and the look-up succeeds exactly for the keys of `STRATEGIES` |
| PgFunnel.TrailingNewlinePassesPattern | teamsteady_bot_enhanced.py:195 | callback data "st50\n" passes the pattern and reaches `choose_strategy` (lines 153-157), which stores strategy "st50\n" and then fails its look-up |
| PgFunnel.RouteCallback | teamsteady_bot_enhanced.py:195-196 | with whole-string patterns, data reaches `choose_strategy` exactly when it is "st50" or "st500", which are keys of `STRATEGIES`, and reaches `copied` exactly when it is "copied" |
| PgFunnel.RoutesAgreeWithoutNewline | teamsteady_bot_enhanced.py:195-196 | on data that does not end in a newline, the corrected routing and the routing as written agree |
| PgFunnel.OnCallback | teamsteady_bot_enhanced.py:195-196 | under the corrected routing, strategy data does what `choose_strategy` (lines 149-168) does, "copied" does what `copied` (lines 170-181) does, and other data leaves the table unchanged with no answer |
| PgFunnel.UpsertKeepsStrategiesKnown | teamsteady_bot_enhanced.py:79 | an upsert whose strategy is absent or a key of `STRATEGIES` keeps every stored strategy a key of `STRATEGIES` |
| PgFunnel.KnownStrategiesGetLead | teamsteady_bot_enhanced.py:87-94 | while every stored strategy is a key of `STRATEGIES`, `get_lead` returns such a key or `None` |
| PgFunnel.HandlersKeepStrategiesKnown | teamsteady_bot_enhanced.py:121-181 | `start`, a routed `choose_strategy` and `copied` all keep every stored strategy a key of `STRATEGIES` |
| PgFunnel.StatsReply | teamsteady_bot_enhanced.py:183-186 | only a caller whose id equals the owner id gets an answer |
| PgFunnel.StatsOwnerOnly | teamsteady_bot_enhanced.py:184-185 | the answer is given exactly to the owner id |
| PyStr.IsSpace | TeamSteady_GitHub_Repo_Package_v3/teamsteady_bot_enhanced.py:155 | space, tab, newline and carriage return are whitespace; no letter, digit, "_" or "/" is |
| PyStr.LStrip | TeamSteady_GitHub_Repo_Package_v3/teamsteady_bot_enhanced.py:155 | the result is a suffix of the input that does not start with whitespace |
| PyStr.LStripRemovesOnlySpace | TeamSteady_GitHub_Repo_Package_v3/teamsteady_bot_enhanced.py:155 | everything `lstrip()` removes is whitespace |
| PyStr.RStrip | TeamSteady_GitHub_Repo_Package_v3/teamsteady_bot_enhanced.py:155 | the result is a prefix of the input that does not end with whitespace |
| PyStr.RStripRemovesOnlySpace | TeamSteady_GitHub_Repo_Package_v3/teamsteady_bot_enhanced.py:155 | everything `rstrip()` removes is whitespace |
| PyStr.Strip | TeamSteady_GitHub_Repo_Package_v3/teamsteady_bot_enhanced.py:155 | `strip()` is no longer than its input and leaves no whitespace at either end |
| PyStr.StripEmptyIffAllSpace | TeamSteady_GitHub_Repo_Package_v3/teamsteady_bot_enhanced.py:155 | `strip()` gives the empty string exactly for a string that is all whitespace |
| PyStr.StripIgnoresPadding | TeamSteady_GitHub_Repo_Package_v3/teamsteady_bot_enhanced.py:155 | `strip()` gives the same result when whitespace is added at either end |
| PyStr.LowerChar | teamsteady_bot_enhanced.py:130 | an ASCII capital becomes the matching lower-case letter (same offset from "a" as from "A"); the KELVIN SIGN becomes "k"; every other character, whitespace included, stays as it is |
| PyStr.Lower | TeamSteady_GitHub_Repo_Package_v3/teamsteady_bot_enhanced.py:155 | `lower()` keeps the length and lower-cases each character as `LowerChar` does, so no upper-case ASCII letter is left |
| PyStr.LowerKeepsLowercase | teamsteady_bot_enhanced.py:130 | a string without capitals or KELVIN SIGN is its own `lower()` |
| PyStr.StripLowerCommute | TeamSteady_GitHub_Repo_Package_v3/teamsteady_bot_enhanced.py:155 | `strip()` and `lower()` commute |
| PyStr.StripLowerIdempotent | TeamSteady_GitHub_Repo_Package_v3/teamsteady_bot_enhanced.py:155 | `strip().lower()` applied twice gives what it gives once |
| PyStr.Contains | teamsteady_bot_enhanced.py:131-134 | `t in s` needs `t` no longer than `s`, holds for the empty `t`, and for strings of equal length holds exactly when they are equal |
| PyStr.ContainsPrefix | teamsteady_bot_enhanced.py:133-134 | an argument containing "st500" also contains "st50", so the later test wins |
| PyStr.NatToString | TeamSteady_GitHub_Repo_Package_v3/teamsteady_bot_enhanced.py:88 | `str(n)` for n >= 0 is a non-empty string of decimal digits, with at least two digits from 10 upward |
| PyStr.IntToStringInjective | TeamSteady_GitHub_Repo_Package_v3/teamsteady_bot_enhanced.py:88 | different chat ids print differently, so the `str(chat_id)` keys of the leads file (line 66) and the job names never collide |
| PyStr.IntToString | TeamSteady_GitHub_Repo_Package_v3/teamsteady_bot_enhanced.py:88 | `str(n)` is non-empty, starts with a minus sign exactly when n is negative, and is otherwise decimal digits |

## Left out

- Telegram plumbing is not modelled:
  - message text, photos, keyboards and message edits (replies are tags);
  - `query.answer()`;
  - the `Updater`, the dispatcher and polling.
  - The `Filters.text & ~Filters.command` filter in front of `on_text` is not modelled either. `on_text` is modelled on any text, so its "/start" branch is part of the model even though a real "/start" goes to the command handler.
- Storage back ends are not modelled.
  - JSON file: the model is in memory. It leaves out `load_leads`/`save_leads`, including the "missing or corrupt file reads as empty" fallback and the ISO time strings.
  - Postgres: it leaves out psycopg2 connections, SSL, SQL text and `init_db`. Every call of `upsert_lead` is treated as a single atomic step.
- Concurrency is not modelled. Jobs firing while a handler runs, and two handlers writing the file at once, are outside the model. Handlers and jobs are single steps on a snapshot.
- The job queue runtime is not modelled:
  - timers and actually firing a job;
  - dropping jobs when the process restarts.
  - A job's effect is modelled as its guard (`FiresMessage`) over the current file.
- Environment and configuration are not modelled, apart from the owner id parameter. This covers the bot token, the database URL and the start-up errors when they are missing.
- The clock (`datetime.utcnow()`) becomes the parameter `now`.
- PyStr.Lower: lower-cases the ASCII letters and the KELVIN SIGN (U+212A, which Python turns into `k`) and keeps every other character. Python's `str.lower()` also lower-cases other Unicode letters. It maps all of them to non-ASCII characters except U+0130, which becomes `i` followed by U+0307. None of these can complete or break a match with the ASCII keywords and tags the bot compares against, because no tag ends in `i`. So the model's `ClassifyText` and `ParseReferral` agree with Python, but `Lower` itself does not match Python on those letters. In particular, its length is kept where Python's grows.
- JSON records have only the keys `first_seen`, `stage` and `last_touch`. Extra keys written by hand are not modelled: `tag_lead` would keep them untouched.
- Stage is modelled as possibly missing, but a JSON `null` stage is not modelled. The code never writes one, since `tag_lead` always writes a string.
- JsonFunnel.Stats: the model gives the counts and the total, not the formatted text. The text shows only the five funnel stages, while any other stored stage is counted in a bucket of its own that the text does not show.
- `PgFunnel.StatsReply`: the Postgres `stats` sends a fixed message and reports no counts, so no counting is modelled there.
- The model follows the code as written, including these behaviours:
  - No reminder jobs are cancelled when `start` runs again. Jobs accumulate, and a chat can receive each reminder more than once (`RestartDuplicatesReminders`).
  - No stage requires a strategy. "funded" (JSON bot) and "copied" (both bots) are accepted from any stage.
  - `COALESCE` treats only `None` as absent. An empty string supplied to `upsert_lead` does replace the stored value.
  - A new row stores the `stage` argument as given, so a row first created without a stage has stage `None`.
  - Referral parsing is a substring search on the whole lower-cased first argument.
  - The Postgres `stats` answers nobody but the owner. The JSON bot lets everyone ask when the owner id is 0, but the Postgres bot then answers only a caller whose id is 0.

## Findings

| source | as written | input that shows it | evidently intended | confidence | as-written member | corrected member |
|---|---|---|---|---|---|---|
| teamsteady_bot_enhanced.py:195 | The `choose_strategy` handler's pattern, the alternatives `^st50$` and `^st500$`, is matched with `re.match`, and Python's `$` also matches just before a final newline. `choose_strategy` then upserts the strategy and only afterwards looks it up in `STRATEGIES` (lines 155-157). | callback data `"st50\n"`: the row's strategy becomes `"st50\n"`, then `STRATEGIES["st50\n"]` raises `KeyError` | only `st50` and `st500` reach `choose_strategy` (whole-string match), so every stored strategy is a key of `STRATEGIES` | medium, not executed (the data of the bot's own buttons never ends in a newline; a crafted callback query can) | PgFunnel.TrailingNewlinePassesPattern | PgFunnel.RouteCallback |

=== FILE: json_funnel.dfy ===
/**
 * The lead funnel of the bot that keeps its leads in a JSON file
 * (TeamSteady_GitHub_Repo_Package_v3/teamsteady_bot_enhanced.py).
 *
 * The file is a dictionary from chat id to a lead record; every handler
 * reads it, changes one record and writes it back. Here the file is the
 * field `leads` of a `LeadFile` object and the job queue of the Telegram
 * library is the field `jobs` of a `JobQueue` object. Clock readings are
 * passed in as `now`; outgoing messages are abstract tags.
 */
module JsonFunnel {
  import opened Wrappers
  import opened PyStr

  type ChatId = int

  /**
   * One entry of the leads file. `stage` is `None` when the entry has no
   * "stage" key (the file is edited by hand or written by an older version).
   */
  datatype Lead = Lead(firstSeen: int, stage: Option<string>, lastTouch: int)

  /** `leads.get(str(chat_id))`. */
  function Lookup(leads: map<ChatId, Lead>, chatId: ChatId): (r: Option<Lead>)
    ensures r.Some? <==> chatId in leads
    ensures r.Some? ==> r.value == leads[chatId]
  {
    if chatId in leads then Some(leads[chatId]) else None
  }

  // ---------------------------------------------------------------------
  // tag_lead

  /**
   * The record `tag_lead(chat_id, stage)` writes back, given the record it
   * found (`prior`). A fresh record starts with `first_seen == last_touch ==
   * now`; an old one keeps `first_seen`; `last_touch` is always `now`; the
   * stage is replaced by `stage` when that is non-empty, and otherwise the
   * record keeps its stage (an entry with no stage key gets "start").
   */
  function TaggedLead(prior: Option<Lead>, stage: string, now: int): (r: Lead)
    ensures r.lastTouch == now
    ensures r.firstSeen == if prior.Some? then prior.value.firstSeen else now
    ensures stage != "" ==> r.stage == Some(stage)
    ensures stage == "" && prior.Some? && prior.value.stage.Some? ==> r.stage == prior.value.stage
    ensures stage == "" && prior.Some? && prior.value.stage.None? ==> r.stage == Some("start")
    ensures stage == "" && prior.None? ==> r.stage == Some("")
  {
    var rec := if prior.Some? then prior.value else Lead(now, Some(stage), now);
    rec.(stage := Some(if stage != "" then stage else rec.stage.GetOr("start")), lastTouch := now)
  }

  /** The leads file, as the dictionary that `load_leads` returns and `save_leads` writes. */
  class LeadFile {
    var leads: map<ChatId, Lead>

    constructor (initial: map<ChatId, Lead>)
      ensures leads == initial
    {
      leads := initial;
    }

    /** `tag_lead`: read the record (or a fresh one), overwrite stage and last_touch, write it back. */
    method TagLead(chatId: ChatId, stage: string, now: int)
      modifies this
      ensures leads == old(leads)[chatId := TaggedLead(Lookup(old(leads), chatId), stage, now)]
      ensures leads.Keys == old(leads).Keys + {chatId}
      ensures forall k :: k in old(leads) && k != chatId ==> leads[k] == old(leads)[k]
    {
      var rec: Lead;
      if chatId in leads {
        rec := leads[chatId];
      } else {
        rec := Lead(now, Some(stage), now);
      }
      rec := rec.(stage := Some(if stage != "" then stage else rec.stage.GetOr("start")));
      rec := rec.(lastTouch := now);
      leads := leads[chatId := rec];
    }
  }

  /** Tagging the same lead twice in a row keeps its first sighting and ends with the later stage and time. */
  lemma TagTwice(leads: map<ChatId, Lead>, chatId: ChatId, s1: string, t1: int, s2: string, t2: int)
    requires s2 != ""
    ensures var l1 := leads[chatId := TaggedLead(Lookup(leads, chatId), s1, t1)];
            var l2 := l1[chatId := TaggedLead(Lookup(l1, chatId), s2, t2)];
            && l2[chatId].firstSeen == (if chatId in leads then leads[chatId].firstSeen else t1)
            && l2[chatId].stage == Some(s2)
            && l2[chatId].lastTouch == t2
  {
  }

  /** With a clock that does not go backwards, every record keeps `first_seen <= last_touch`. */
  lemma TagKeepsTouchOrder(prior: Option<Lead>, stage: string, now: int)
    requires prior.Some? ==> prior.value.firstSeen <= prior.value.lastTouch <= now
    ensures TaggedLead(prior, stage, now).firstSeen <= TaggedLead(prior, stage, now).lastTouch
  {
  }

  // ---------------------------------------------------------------------
  // Reminder jobs

  /** The three follow-up callbacks. */
  datatype FollowUp = FollowUp30m | FollowUp24h | FollowUp72h

  /** A one-shot job as `job_queue.run_once(callback, delay, context=chat_id, name=...)` records it. */
  datatype Job = Job(callback: FollowUp, delaySeconds: nat, chatId: ChatId, name: string)

  /** The name prefix `start` gives each kind of job. */
  function NamePrefix(kind: FollowUp): (prefix: string)
    ensures |prefix| == 5 && prefix[..2] == "fu" && prefix[4] == '_'
    ensures prefix == "fu30_" <==> kind == FollowUp30m
    ensures prefix == "fu24_" <==> kind == FollowUp24h
    ensures prefix == "fu72_" <==> kind == FollowUp72h
  {
    match kind
    case FollowUp30m => "fu30_"
    case FollowUp24h => "fu24_"
    case FollowUp72h => "fu72_"
  }

  /** `f"fu30_{chat_id}"` and its two siblings. */
  function JobName(kind: FollowUp, chatId: ChatId): (name: string)
    ensures |name| > 5 && name[..5] == NamePrefix(kind) && name[5..] == IntToString(chatId)
  {
    NamePrefix(kind) + IntToString(chatId)
  }

  /** The delay `start` gives each kind of job, in seconds. */
  function Delay(kind: FollowUp): (seconds: nat)
    ensures seconds == 1800 <==> kind == FollowUp30m
    ensures seconds == 86400 <==> kind == FollowUp24h
    ensures seconds == 259200 <==> kind == FollowUp72h
  {
    match kind
    case FollowUp30m => 30 * 60
    case FollowUp24h => 24 * 60 * 60
    case FollowUp72h => 72 * 60 * 60
  }

  /** The jobs one call of `start` appends, in the order it appends them. */
  function ReminderPlan(chatId: ChatId): (plan: seq<Job>)
    ensures |plan| == 3
    ensures forall i :: 0 <= i < 3 ==> plan[i].chatId == chatId
    ensures forall i :: 0 <= i < 3 ==> plan[i].delaySeconds == Delay(plan[i].callback)
    ensures forall i :: 0 <= i < 3 ==> plan[i].name == JobName(plan[i].callback, chatId)
  {
    [ Job(FollowUp30m, Delay(FollowUp30m), chatId, JobName(FollowUp30m, chatId)),
      Job(FollowUp24h, Delay(FollowUp24h), chatId, JobName(FollowUp24h, chatId)),
      Job(FollowUp72h, Delay(FollowUp72h), chatId, JobName(FollowUp72h, chatId)) ]
  }

  /** A job name determines both the kind of job and the chat it reminds. */
  lemma JobNameInjective(k1: FollowUp, a: ChatId, k2: FollowUp, b: ChatId)
    requires JobName(k1, a) == JobName(k2, b)
    ensures k1 == k2 && a == b
  {
    var n1, n2 := JobName(k1, a), JobName(k2, b);
    assert n1[..5] == NamePrefix(k1) && n2[..5] == NamePrefix(k2);
    assert n1[5..] == IntToString(a) && n2[5..] == IntToString(b);
    IntToStringInjective(a, b);
  }

  /** The three jobs of a plan fire 30 minutes, 24 hours and 72 hours after `start`, and no two jobs of any two plans share a name unless they are the same job of the same chat. */
  lemma ReminderPlanShape(a: ChatId, b: ChatId, i: nat, j: nat)
    requires i < 3 && j < 3
    ensures [ReminderPlan(a)[0].delaySeconds, ReminderPlan(a)[1].delaySeconds, ReminderPlan(a)[2].delaySeconds] == [1800, 86400, 259200]
    ensures ReminderPlan(a)[i].name == ReminderPlan(b)[j].name ==> a == b && i == j
  {
    PlanNamesDistinct(a, b, i, j);
  }

  lemma PlanNamesDistinct(a: ChatId, b: ChatId, i: nat, j: nat)
    requires i < 3 && j < 3
    ensures ReminderPlan(a)[i].name == ReminderPlan(b)[j].name ==> a == b && i == j
  {
    var k1, k2 := ReminderPlan(a)[i].callback, ReminderPlan(b)[j].callback;
    if JobName(k1, a) == JobName(k2, b) {
      JobNameInjective(k1, a, k2, b);
      PlanKindsDistinct(a, b, i, j);
    }
  }

  /** The three jobs of a plan are of three different kinds, in the same order in every plan. */
  lemma PlanKindsDistinct(a: ChatId, b: ChatId, i: nat, j: nat)
    requires i < 3 && j < 3
    ensures ReminderPlan(a)[i].callback == ReminderPlan(b)[j].callback ==> i == j
  {
  }

  /** The Telegram job queue, seen as the list of jobs handed to `run_once`. */
  class JobQueue {
    var jobs: seq<Job>

    constructor ()
      ensures jobs == []
    {
      jobs := [];
    }

    /** `run_once`: appends the job; jobs already queued, even under the same name, stay. */
    method RunOnce(callback: FollowUp, delaySeconds: nat, chatId: ChatId, name: string)
      modifies this
      ensures jobs == old(jobs) + [Job(callback, delaySeconds, chatId, name)]
    {
      jobs := jobs + [Job(callback, delaySeconds, chatId, name)];
    }
  }

  /** A second `start` cancels nothing: the queue then holds each reminder of the chat twice, under the same name. */
  lemma RestartDuplicatesReminders(jobs: seq<Job>, chatId: ChatId, i: nat)
    requires i < 3
    ensures var q := jobs + ReminderPlan(chatId) + ReminderPlan(chatId);
            && |q| == |jobs| + 6
            && q[..|jobs|] == jobs
            && q[|jobs| + i] == q[|jobs| + 3 + i]
            && q[|jobs| + i].name == JobName(q[|jobs| + i].callback, chatId)
  {
  }

  // ---------------------------------------------------------------------
  // Follow-up guards: evaluated when a job fires, on `leads.get(str(chat_id), {})`

  /** `followup_30m` sends only while the stored stage is exactly "start". */
  function Sends30m(rec: Option<Lead>): (sends: bool)
    ensures sends ==> rec.Some? && rec.value.stage.Some?
    ensures rec.Some? && rec.value.stage.Some? ==> (sends <==> rec.value.stage.value == "start")
  {
    rec.Some? && rec.value.stage == Some("start")
  }

  /** `followup_24h` sends while the stored stage is "start" or "done". */
  function Sends24h(rec: Option<Lead>): (sends: bool)
    ensures sends ==> rec.Some? && rec.value.stage.Some?
    ensures rec.Some? && rec.value.stage.Some? ==> (sends <==> rec.value.stage.value == "start" || rec.value.stage.value == "done")
  {
    rec.Some? && rec.value.stage.Some? && rec.value.stage.value in ["start", "done"]
  }

  /** `followup_72h` sends while the stored stage is "start", "done" or "verified". */
  function Sends72h(rec: Option<Lead>): (sends: bool)
    ensures sends ==> rec.Some? && rec.value.stage.Some?
    ensures rec.Some? && rec.value.stage.Some?
            ==> (sends <==> rec.value.stage.value == "start" || rec.value.stage.value == "done" || rec.value.stage.value == "verified")
  {
    rec.Some? && rec.value.stage.Some? && rec.value.stage.value in ["start", "done", "verified"]
  }

  predicate Sends(kind: FollowUp, rec: Option<Lead>) {
    match kind
    case FollowUp30m => Sends30m(rec)
    case FollowUp24h => Sends24h(rec)
    case FollowUp72h => Sends72h(rec)
  }

  /** Whether a job, firing now, sends its reminder: only to a chat with a record whose stage is one its kind still wants. */
  function FiresMessage(job: Job, leads: map<ChatId, Lead>): (fires: bool)
    ensures job.chatId !in leads ==> !fires
    ensures job.chatId in leads
            ==> (fires <==> leads[job.chatId].stage.Some? && leads[job.chatId].stage.value in GuardStages(job.callback))
  {
    GuardsAreStageMembership(job.callback, Lookup(leads, job.chatId));
    Sends(job.callback, Lookup(leads, job.chatId))
  }

  /** The stages at which each reminder is still wanted. */
  function GuardStages(kind: FollowUp): set<string> {
    match kind
    case FollowUp30m => {"start"}
    case FollowUp24h => {"start", "done"}
    case FollowUp72h => {"start", "done", "verified"}
  }

  /** Each guard is membership of the stored stage in its stage set; a missing lead or a record without a stage never gets a reminder. */
  lemma GuardsAreStageMembership(kind: FollowUp, rec: Option<Lead>)
    ensures Sends(kind, rec) <==> rec.Some? && rec.value.stage.Some? && rec.value.stage.value in GuardStages(kind)
    ensures rec.None? ==> !Sends(kind, rec)
  {
  }

  /** The later reminders are sent in every situation the earlier ones are. */
  lemma GuardsNest(rec: Option<Lead>)
    ensures Sends30m(rec) ==> Sends24h(rec)
    ensures Sends24h(rec) ==> Sends72h(rec)
  {
  }

  /**
   * Progress silences the reminders: once a lead has typed "verified" only
   * the 72-hour job still sends, and once it has reached "funded" or
   * "copied" none does. A lead that typed "done" keeps the 24h and 72h ones.
   */
  lemma ProgressSilencesReminders(leads: map<ChatId, Lead>, job: Job, stage: string, now: int)
    requires stage in {"done", "verified", "funded", "copied"}
    ensures var after := leads[job.chatId := TaggedLead(Lookup(leads, job.chatId), stage, now)];
            && (job.callback == FollowUp30m ==> !FiresMessage(job, after))
            && (job.callback == FollowUp24h ==> (FiresMessage(job, after) <==> stage == "done"))
            && (job.callback == FollowUp72h ==> (FiresMessage(job, after) <==> stage in {"done", "verified"}))
  {
  }

  // ---------------------------------------------------------------------
  // Handlers

  /** The messages the handlers send, as tags. */
  datatype Reply =
    | Welcome            // welcome text (or photo) and the main menu
    | AskVerification    // "Step 2 — Verification (KYC)"
    | AskFunding         // "Step 3 — Add Funds"
    | ActivateCopying    // "Step 4 — Activate Copy Trading" and the channel link
    | NotUnderstood      // the fallback
    | StepCreateAccount  // "Step 1 — Create Your Vantage Account" (an edit)
    | HowItWorks         // the info screen (an edit)
    | CopyLinkScreen     // the copy link screen (an edit)
    | SupportScreen      // the contact-support screen (an edit)
    | MainMenu           // "Back to menu." (an edit)

  /** `start`: tag the lead "start", greet, and queue the three follow-ups. */
  method Start(store: LeadFile, queue: JobQueue, chatId: ChatId, now: int) returns (reply: Reply)
    modifies store, queue
    ensures store.leads == old(store.leads)[chatId := TaggedLead(Lookup(old(store.leads), chatId), "start", now)]
    ensures queue.jobs == old(queue.jobs) + ReminderPlan(chatId)
    ensures reply == Welcome
  {
    store.TagLead(chatId, "start", now);
    reply := Welcome;
    queue.RunOnce(FollowUp30m, 30 * 60, chatId, "fu30_" + IntToString(chatId));
    queue.RunOnce(FollowUp24h, 24 * 60 * 60, chatId, "fu24_" + IntToString(chatId));
    queue.RunOnce(FollowUp72h, 72 * 60 * 60, chatId, "fu72_" + IntToString(chatId));
  }

  /** The free-text commands `on_text` recognises. */
  datatype TextCommand = Mark(stage: string) | Restart | Unrecognized

  /** `(text or '').strip().lower()`. */
  function Normalize(text: Option<string>): (t: string)
    ensures text.None? ==> t == []
    ensures t == [] || (!IsSpace(t[0]) && !IsSpace(t[|t| - 1]))
    ensures forall i :: 0 <= i < |t| ==> !('A' <= t[i] <= 'Z')
  {
    LowerTrimmed(Strip(text.GetOr("")));
    Lower(Strip(text.GetOr("")))
  }

  /** `on_text`'s comparisons, on text already normalised. */
  function Keyword(t: string): (cmd: TextCommand)
    ensures cmd.Mark? <==> t in {"done", "verified", "funded"}
    ensures cmd.Mark? ==> cmd.stage == t
    ensures cmd.Restart? <==> t in {"start", "/start"}
  {
    if t == "done" then Mark("done")
    else if t == "verified" then Mark("verified")
    else if t == "funded" then Mark("funded")
    else if t in {"/start", "start"} then Restart
    else Unrecognized
  }

  /** `on_text`'s dispatch: the normalised text is a stage keyword, a restart keyword, or neither. */
  function ClassifyText(text: Option<string>): (cmd: TextCommand)
    ensures cmd.Mark? <==> Normalize(text) in {"done", "verified", "funded"}
    ensures cmd.Mark? ==> cmd.stage == Normalize(text)
    ensures cmd.Restart? <==> Normalize(text) in {"start", "/start"}
    ensures cmd.Unrecognized? <==> Normalize(text) !in {"done", "verified", "funded", "start", "/start"}
  {
    Keyword(Normalize(text))
  }

  /** The classification ignores surrounding whitespace and letter case. */
  lemma ClassifyIgnoresPaddingAndCase(pre: string, s: string, post: string)
    requires AllSpace(pre) && AllSpace(post)
    ensures ClassifyText(Some(pre + s + post)) == ClassifyText(Some(s))
    ensures ClassifyText(Some(Lower(s))) == ClassifyText(Some(s))
  {
    StripIgnoresPadding(pre, s, post);
    StripLowerCommute(s);
    LowerIdempotent(Strip(s));
  }

  /** Normalising is idempotent: normalised text classifies as the text it came from. */
  lemma NormalizeIdempotent(text: Option<string>)
    ensures Normalize(Some(Normalize(text))) == Normalize(text)
    ensures ClassifyText(Some(Normalize(text))) == ClassifyText(text)
  {
    var t := Normalize(text);
    StripLowerIdempotent(text.GetOr(""));
    assert Normalize(Some(t)) == t;
  }

  /** A message with no text is not a command. */
  lemma NoTextIsUnrecognized()
    ensures ClassifyText(None) == Unrecognized
  {
    assert Normalize(None) == [];
  }

  /** The reply `on_text` gives for a stage keyword. */
  function MarkReply(stage: string): (reply: Reply)
    ensures stage == "done" ==> reply == AskVerification
    ensures stage == "verified" ==> reply == AskFunding
    ensures stage == "funded" ==> reply == ActivateCopying
    ensures reply in {AskVerification, AskFunding, ActivateCopying}
  {
    if stage == "done" then AskVerification
    else if stage == "verified" then AskFunding
    else ActivateCopying
  }

  /**
   * What `on_text` does once the text is classified: a stage keyword tags
   * that stage, a restart runs `start`, and anything else only answers with
   * the fallback. No stage is refused: "funded" is accepted from any stage,
   * with or without the earlier steps.
   */
  method RunTextCommand(store: LeadFile, queue: JobQueue, chatId: ChatId, cmd: TextCommand, now: int)
    returns (reply: Reply)
    modifies store, queue
    ensures cmd.Mark? ==>
      && store.leads == old(store.leads)[chatId := TaggedLead(Lookup(old(store.leads), chatId), cmd.stage, now)]
      && queue.jobs == old(queue.jobs)
      && reply == MarkReply(cmd.stage)
    ensures cmd.Restart? ==>
      && store.leads == old(store.leads)[chatId := TaggedLead(Lookup(old(store.leads), chatId), "start", now)]
      && queue.jobs == old(queue.jobs) + ReminderPlan(chatId)
      && reply == Welcome
    ensures cmd.Unrecognized? ==>
      && store.leads == old(store.leads)
      && queue.jobs == old(queue.jobs)
      && reply == NotUnderstood
  {
    match cmd {
      case Mark(stage) =>
        store.TagLead(chatId, stage, now);
        reply := MarkReply(stage);
      case Restart =>
        reply := Start(store, queue, chatId, now);
      case Unrecognized =>
        reply := NotUnderstood;
    }
  }

  /** `on_text`: classify the message's text, then act on it. */
  method OnText(store: LeadFile, queue: JobQueue, chatId: ChatId, text: Option<string>, now: int)
    returns (reply: Reply)
    modifies store, queue
    ensures ClassifyText(text).Mark? ==>
      && store.leads == old(store.leads)[chatId := TaggedLead(Lookup(old(store.leads), chatId), ClassifyText(text).stage, now)]
      && queue.jobs == old(queue.jobs)
      && reply == MarkReply(ClassifyText(text).stage)
    ensures ClassifyText(text).Restart? ==>
      && store.leads == old(store.leads)[chatId := TaggedLead(Lookup(old(store.leads), chatId), "start", now)]
      && queue.jobs == old(queue.jobs) + ReminderPlan(chatId)
      && reply == Welcome
    ensures ClassifyText(text).Unrecognized? ==>
      && store.leads == old(store.leads)
      && queue.jobs == old(queue.jobs)
      && reply == NotUnderstood
  {
    reply := RunTextCommand(store, queue, chatId, ClassifyText(text), now);
  }

  /** The inline-keyboard buttons `on_button` recognises, by callback data. */
  datatype ButtonAction = GetStarted | Info | CopyLink | Agent | Back | Ignored

  function ClassifyButton(data: string): (action: ButtonAction)
    ensures action.Ignored? <==> data !in {"onb1", "info", "copy", "agent", "back"}
  {
    if data == "onb1" then GetStarted
    else if data == "info" then Info
    else if data == "copy" then CopyLink
    else if data == "agent" then Agent
    else if data == "back" then Back
    else Ignored
  }

  /** The stage a button tags, if any. */
  function ButtonStage(action: ButtonAction): (stage: Option<string>)
    ensures stage.Some? <==> action == GetStarted || action == CopyLink
    ensures action == GetStarted ==> stage == Some("start")
    ensures action == CopyLink ==> stage == Some("copied")
  {
    match action
    case GetStarted => Some("start")
    case CopyLink => Some("copied")
    case _ => None
  }

  /** Only "onb1" and "copy" write to the leads file, with stages "start" and "copied". */
  lemma ButtonWrites(data: string)
    ensures ButtonStage(ClassifyButton(data)) == Some("start") <==> data == "onb1"
    ensures ButtonStage(ClassifyButton(data)) == Some("copied") <==> data == "copy"
    ensures ButtonStage(ClassifyButton(data)).None? <==> data != "onb1" && data != "copy"
  {
  }

  /**
   * `on_button`: "onb1" tags "start" (without queueing reminders), "copy"
   * tags "copied" (with no check of earlier stages), "info", "agent" and
   * "back" only change the screen, and unknown data does nothing.
   */
  method OnButton(store: LeadFile, chatId: ChatId, data: string, now: int) returns (screen: Option<Reply>)
    modifies store
    ensures ButtonStage(ClassifyButton(data)).Some? ==>
      store.leads == old(store.leads)[chatId := TaggedLead(Lookup(old(store.leads), chatId), ButtonStage(ClassifyButton(data)).value, now)]
    ensures ButtonStage(ClassifyButton(data)).None? ==> store.leads == old(store.leads)
    ensures screen.None? <==> ClassifyButton(data).Ignored?
    ensures data == "onb1" ==> screen == Some(StepCreateAccount)
    ensures data == "info" ==> screen == Some(HowItWorks)
    ensures data == "copy" ==> screen == Some(CopyLinkScreen)
    ensures data == "agent" ==> screen == Some(SupportScreen)
    ensures data == "back" ==> screen == Some(MainMenu)
  {
    if data == "onb1" {
      store.TagLead(chatId, "start", now);
      return Some(StepCreateAccount);
    }
    if data == "info" {
      return Some(HowItWorks);
    }
    if data == "copy" {
      store.TagLead(chatId, "copied", now);
      return Some(CopyLinkScreen);
    }
    if data == "agent" {
      return Some(SupportScreen);
    }
    if data == "back" {
      return Some(MainMenu);
    }
    return None;
  }

  // ---------------------------------------------------------------------
  // stats

  datatype StatsReply = Restricted | Report(total: nat, stages: map<string, nat>)

  /** The buckets `stats` starts from before counting. */
  const InitialBuckets: map<string, nat> := map["start" := 0, "done" := 0, "verified" := 0, "funded" := 0, "copied" := 0]

  /** The stage a record is counted under: `v.get('stage', 'start')`. */
  function CountedStage(lead: Lead): (stage: string)
    ensures lead.stage.None? ==> stage == "start"
    ensures lead.stage.Some? ==> stage == lead.stage.value
  {
    lead.stage.GetOr("start")
  }

  /** The chats among `keys` whose lead is counted under stage `s`. */
  ghost function Bucket(leads: map<ChatId, Lead>, keys: set<ChatId>, s: string): set<ChatId> {
    set k | k in keys && k in leads && CountedStage(leads[k]) == s
  }

  /** The stages `stats` reports: the five funnel stages, and any other stage some lead is counted under. */
  ghost function ReportedStages(leads: map<ChatId, Lead>): set<string> {
    InitialBuckets.Keys + set k | k in leads :: CountedStage(leads[k])
  }

  /** What `stats` should count: for each reported stage, the number of leads counted under it. */
  ghost function StageCounts(leads: map<ChatId, Lead>): map<string, nat> {
    map s | s in ReportedStages(leads) :: |Bucket(leads, leads.Keys, s)|
  }

  /** `if OWNER_ID and update.effective_user.id != OWNER_ID`: an owner id of 0 means everyone may ask. */
  predicate StatsRestricted(callerId: int, ownerId: int)
    ensures ownerId == 0 ==> !StatsRestricted(callerId, ownerId)
    ensures callerId == ownerId ==> !StatsRestricted(callerId, ownerId)
    ensures ownerId != 0 && callerId != ownerId ==> StatsRestricted(callerId, ownerId)
  {
    ownerId != 0 && callerId != ownerId
  }

  /** The sum of the values of a map of counts. */
  ghost function SumValues(m: map<string, nat>): nat
    decreases |m|
  {
    if m == map[] then 0
    else
      var s :| s in m;
      assert |m - {s}| < |m| by { assert (m - {s}).Keys == m.Keys - {s}; }
      m[s] + SumValues(m - {s})
  }

  /** The counts of a map whose entries are buckets add up to the number of leads counted under one of its keys. */
  lemma {:induction false} SumOfBuckets(leads: map<ChatId, Lead>, m: map<string, nat>)
    requires forall s :: s in m ==> m[s] == |Bucket(leads, leads.Keys, s)|
    ensures SumValues(m) == |Covered(leads, m.Keys)|
  {
    if m == map[] {
      assert Covered(leads, m.Keys) == {};
    } else {
      var s :| s in m && SumValues(m) == m[s] + SumValues(m - {s});
      var rest := m - {s};
      SumOfBuckets(leads, rest);
      CoveredSplit(leads, m.Keys, s);
      assert rest.Keys == m.Keys - {s};
    }
  }

  /** The leads counted under one of the stages `stages`. */
  ghost function Covered(leads: map<ChatId, Lead>, stages: set<string>): set<ChatId> {
    set k | k in leads && CountedStage(leads[k]) in stages
  }

  /** Taking one stage out of a set of stages takes exactly its bucket out of the leads covered. */
  lemma CoveredSplit(leads: map<ChatId, Lead>, stages: set<string>, s: string)
    requires s in stages
    ensures Covered(leads, stages) == Bucket(leads, leads.Keys, s) + Covered(leads, stages - {s})
    ensures Bucket(leads, leads.Keys, s) * Covered(leads, stages - {s}) == {}
  {
  }

  /** `stages` holds the count `stats` has reached after counting the leads of `counted`. */
  ghost predicate Tallied(leads: map<ChatId, Lead>, counted: set<ChatId>, stages: map<string, nat>) {
    && (forall s :: s in stages <==> s in InitialBuckets || Bucket(leads, counted, s) != {})
    && (forall s :: s in stages ==> stages[s] == |Bucket(leads, counted, s)|)
  }

  lemma TallyStart(leads: map<ChatId, Lead>)
    ensures Tallied(leads, {}, InitialBuckets)
  {
    forall s ensures Bucket(leads, {}, s) == {} {
    }
  }

  /** One turn of the loop in `stats`: counting one more lead bumps its stage's bucket. */
  lemma TallyStep(leads: map<ChatId, Lead>, counted: set<ChatId>, stages: map<string, nat>, k: ChatId)
    requires k in leads && k !in counted
    requires Tallied(leads, counted, stages)
    ensures var stage := CountedStage(leads[k]);
            Tallied(leads, counted + {k}, stages[stage := (if stage in stages then stages[stage] else 0) + 1])
  {
    var stage := CountedStage(leads[k]);
    var next := stages[stage := (if stage in stages then stages[stage] else 0) + 1];
    forall s | s in next
      ensures next[s] == |Bucket(leads, counted + {k}, s)|
    {
      BucketGrows(leads, counted, k, s);
    }
    forall s
      ensures s in next <==> s in InitialBuckets || Bucket(leads, counted + {k}, s) != {}
    {
      BucketGrows(leads, counted, k, s);
    }
  }

  /** Counting one more lead adds it to its own stage's bucket and to no other. */
  lemma BucketGrows(leads: map<ChatId, Lead>, counted: set<ChatId>, k: ChatId, s: string)
    requires k in leads && k !in counted
    ensures CountedStage(leads[k]) == s ==> Bucket(leads, counted + {k}, s) == Bucket(leads, counted, s) + {k}
    ensures CountedStage(leads[k]) == s ==> |Bucket(leads, counted + {k}, s)| == |Bucket(leads, counted, s)| + 1
    ensures CountedStage(leads[k]) != s ==> Bucket(leads, counted + {k}, s) == Bucket(leads, counted, s)
  {
    if CountedStage(leads[k]) == s {
      assert Bucket(leads, counted + {k}, s) == Bucket(leads, counted, s) + {k};
      assert k !in Bucket(leads, counted, s);
    } else {
      assert Bucket(leads, counted + {k}, s) == Bucket(leads, counted, s);
    }
  }

  /** The counts hold every funnel stage and exactly the other stages some lead is at, each with its number of leads. */
  lemma StageCountsMeaning(leads: map<ChatId, Lead>, s: string)
    ensures s in StageCounts(leads) <==> s in InitialBuckets || exists k :: k in leads && CountedStage(leads[k]) == s
    ensures s in StageCounts(leads) ==> StageCounts(leads)[s] == |set k | k in leads && CountedStage(leads[k]) == s|
  {
    assert Bucket(leads, leads.Keys, s) == set k | k in leads && CountedStage(leads[k]) == s;
    if exists k :: k in leads && CountedStage(leads[k]) == s {
      var k :| k in leads && CountedStage(leads[k]) == s;
      assert s in set k | k in leads :: CountedStage(leads[k]);
    }
  }

  /** Every lead is counted exactly once: the counts add up to the number of leads. */
  lemma StageCountsSum(leads: map<ChatId, Lead>)
    ensures SumValues(StageCounts(leads)) == |leads|
  {
    var m := StageCounts(leads);
    SumOfBuckets(leads, m);
    assert Covered(leads, m.Keys) == leads.Keys by {
      forall k | k in leads ensures CountedStage(leads[k]) in m.Keys {
        assert CountedStage(leads[k]) in set j | j in leads :: CountedStage(leads[j]);
      }
    }
  }

  /** A finished tally is the intended count. */
  lemma TalliedIsStageCounts(leads: map<ChatId, Lead>, stages: map<string, nat>)
    requires Tallied(leads, leads.Keys, stages)
    ensures stages == StageCounts(leads)
  {
    forall s ensures s in stages <==> s in ReportedStages(leads) {
      if Bucket(leads, leads.Keys, s) != {} {
        EmptyOrMember(Bucket(leads, leads.Keys, s));
        var k :| k in Bucket(leads, leads.Keys, s);
        assert s == CountedStage(leads[k]);
      }
      if s in set k | k in leads :: CountedStage(leads[k]) {
        var k :| k in leads && CountedStage(leads[k]) == s;
        assert k in Bucket(leads, leads.Keys, s);
      }
    }
  }

  lemma EmptyOrMember(s: set<ChatId>)
    ensures s == {} || exists k :: k in s
  {
    if forall k :: k !in s {
      assert s == {};
    }
  }

  /**
   * `stats`: outside the owner, only the restricted reply; otherwise the
   * number of leads and the count of leads per stage (see
   * `StageCountsMeaning` and `StageCountsSum`).
   */
  method Stats(leads: map<ChatId, Lead>, callerId: int, ownerId: int) returns (reply: StatsReply)
    ensures reply.Restricted? <==> StatsRestricted(callerId, ownerId)
    ensures reply.Report? ==> reply.total == |leads| && reply.stages == StageCounts(leads)
  {
    if ownerId != 0 && callerId != ownerId {
      return Restricted;
    }
    var total := |leads|;
    var stages := InitialBuckets;
    var remaining := leads.Keys;
    TallyStart(leads);
    while remaining != {}
      invariant remaining <= leads.Keys
      invariant Tallied(leads, leads.Keys - remaining, stages)
      decreases remaining
    {
      EmptyOrMember(remaining);
      var k :| k in remaining;
      var stage := CountedStage(leads[k]);
      TallyStep(leads, leads.Keys - remaining, stages, k);
      stages := stages[stage := (if stage in stages then stages[stage] else 0) + 1];
      assert leads.Keys - (remaining - {k}) == (leads.Keys - remaining) + {k};
      remaining := remaining - {k};
    }
    assert leads.Keys - remaining == leads.Keys;
    TalliedIsStageCounts(leads, stages);
    return Report(total, stages);
  }
}

=== FILE: pg_funnel.dfy ===
/**
 * The lead funnel of the bot that keeps its leads in a Postgres table
 * (teamsteady_bot_enhanced.py).
 *
 * The table `leads(chat_id PRIMARY KEY, first_seen, last_touch, stage,
 * source, name, strategy)` is the field `rows` of a `LeadsTable` object,
 * keyed by chat id, so there is at most one row per chat. NULL is `None`.
 * Clock readings are passed in as `now`; outgoing messages are abstract tags.
 */
module PgFunnel {
  import opened Wrappers
  import opened PyStr

  type ChatId = int

  datatype Row = Row(
    firstSeen: int,
    lastTouch: int,
    stage: Option<string>,
    source: Option<string>,
    name: Option<string>,
    strategy: Option<string>)

  /** The keyword arguments of `upsert_lead`; each defaults to `None`. */
  datatype UpsertArgs = UpsertArgs(
    stage: Option<string>,
    source: Option<string>,
    name: Option<string>,
    strategy: Option<string>)

  /** The four columns `upsert_lead` coalesces. */
  datatype Column = StageColumn | SourceColumn | NameColumn | StrategyColumn

  function Cell(row: Row, c: Column): Option<string> {
    match c
    case StageColumn => row.stage
    case SourceColumn => row.source
    case NameColumn => row.name
    case StrategyColumn => row.strategy
  }

  function Arg(u: UpsertArgs, c: Column): Option<string> {
    match c
    case StageColumn => u.stage
    case SourceColumn => u.source
    case NameColumn => u.name
    case StrategyColumn => u.strategy
  }

  /** SQL's `COALESCE(incoming, stored)`: only NULL counts as absent, so an empty string still replaces. */
  function Coalesce(incoming: Option<string>, stored: Option<string>): (r: Option<string>)
    ensures r.None? <==> incoming.None? && stored.None?
    ensures incoming.Some? ==> r == incoming
    ensures r == incoming || r == stored
    ensures incoming == Some("") ==> r == Some("")
  {
    if incoming.Some? then incoming else stored
  }

  // ---------------------------------------------------------------------
  // upsert_lead and get_lead

  /**
   * The table after `upsert_lead(chat_id, **u)` at time `now`. An absent
   * chat gets one new row with `first_seen == last_touch == now` and the
   * arguments stored as given, `None` included. A present chat keeps
   * `first_seen`, gets `last_touch == now`, and each column is replaced
   * only by a non-`None` argument. No other row changes.
   */
  function Upserted(rows: map<ChatId, Row>, chatId: ChatId, u: UpsertArgs, now: int): (r: map<ChatId, Row>)
    ensures r.Keys == rows.Keys + {chatId}
    ensures forall k :: k in rows && k != chatId ==> r[k] == rows[k]
    ensures r[chatId].lastTouch == now
    ensures r[chatId].firstSeen == if chatId in rows then rows[chatId].firstSeen else now
    ensures chatId !in rows ==> forall c :: Cell(r[chatId], c) == Arg(u, c)
    ensures chatId in rows ==> forall c :: Cell(r[chatId], c) == (if Arg(u, c).Some? then Arg(u, c) else Cell(rows[chatId], c))
  {
    if chatId !in rows then
      rows[chatId := Row(now, now, u.stage, u.source, u.name, u.strategy)]
    else
      var cur := rows[chatId];
      rows[chatId := Row(cur.firstSeen, now, Coalesce(u.stage, cur.stage), Coalesce(u.source, cur.source),
                         Coalesce(u.name, cur.name), Coalesce(u.strategy, cur.strategy))]
  }

  /** The `leads` table. */
  class LeadsTable {
    var rows: map<ChatId, Row>

    constructor (initial: map<ChatId, Row>)
      ensures rows == initial
    {
      rows := initial;
    }

    /** `upsert_lead`: look the chat up, then INSERT a new row or UPDATE the existing one with COALESCE. */
    method UpsertLead(chatId: ChatId, u: UpsertArgs, now: int)
      modifies this
      ensures rows == Upserted(old(rows), chatId, u, now)
    {
      var found := chatId in rows;
      if !found {
        rows := rows[chatId := Row(now, now, u.stage, u.source, u.name, u.strategy)];
      } else {
        var cur := rows[chatId];
        rows := rows[chatId := cur.(lastTouch := now,
                                    stage := Coalesce(u.stage, cur.stage),
                                    source := Coalesce(u.source, cur.source),
                                    name := Coalesce(u.name, cur.name),
                                    strategy := Coalesce(u.strategy, cur.strategy))];
      }
    }
  }

  /** `get_lead`: the stored strategy, or `None` when there is no row (or the row's strategy is NULL). */
  function GetLead(rows: map<ChatId, Row>, chatId: ChatId): (r: Option<string>)
    ensures chatId !in rows ==> r.None?
    ensures chatId in rows ==> r == rows[chatId].strategy
  {
    if chatId in rows then rows[chatId].strategy else None
  }

  /** After an upsert, `get_lead` sees the new strategy if one was given and the old one otherwise; other chats see no change. */
  lemma GetLeadAfterUpsert(rows: map<ChatId, Row>, chatId: ChatId, u: UpsertArgs, now: int, other: ChatId)
    ensures GetLead(Upserted(rows, chatId, u, now), chatId) == Coalesce(u.strategy, GetLead(rows, chatId))
    ensures other != chatId ==> GetLead(Upserted(rows, chatId, u, now), other) == GetLead(rows, other)
  {
    assert Cell(Upserted(rows, chatId, u, now)[chatId], StrategyColumn) == Upserted(rows, chatId, u, now)[chatId].strategy;
  }

  /** With a clock that does not go backwards, every row keeps `first_seen <= last_touch`. */
  lemma UpsertKeepsTouchOrder(rows: map<ChatId, Row>, chatId: ChatId, u: UpsertArgs, now: int)
    requires chatId in rows ==> rows[chatId].firstSeen <= rows[chatId].lastTouch <= now
    ensures Upserted(rows, chatId, u, now)[chatId].firstSeen <= Upserted(rows, chatId, u, now)[chatId].lastTouch
  {
  }

  // ---------------------------------------------------------------------
  // Any number of upserts of one chat

  /** One call of `upsert_lead` for the chat under study. */
  datatype Call = Call(args: UpsertArgs, now: int)

  /** The table after the calls, in order. */
  function ApplyAll(rows: map<ChatId, Row>, chatId: ChatId, calls: seq<Call>): map<ChatId, Row>
    decreases |calls|
  {
    if calls == [] then rows
    else
      var last := calls[|calls| - 1];
      Upserted(ApplyAll(rows, chatId, calls[..|calls| - 1]), chatId, last.args, last.now)
  }

  /** The last present value of a sequence, or `None` when none is present. */
  function LastPresent(values: seq<Option<string>>): Option<string> {
    if values == [] then None
    else if values[|values| - 1].Some? then values[|values| - 1]
    else LastPresent(values[..|values| - 1])
  }

  /** The values the calls pass for one column. */
  function ArgColumn(calls: seq<Call>, c: Column): (col: seq<Option<string>>)
    ensures |col| == |calls|
  {
    seq(|calls|, i requires 0 <= i < |calls| => Arg(calls[i].args, c))
  }

  /**
   * The coalescing law: after any non-empty sequence of upserts of one
   * chat, each of stage, source, name and strategy holds the last value
   * any call supplied for it, or what the row held before when no call
   * supplied one; `first_seen` is that of the row before (or the first
   * call's time) and `last_touch` is the last call's time.
   */
  lemma {:induction false} CoalescingLaw(rows: map<ChatId, Row>, chatId: ChatId, calls: seq<Call>, c: Column)
    requires calls != []
    ensures chatId in ApplyAll(rows, chatId, calls)
    ensures Cell(ApplyAll(rows, chatId, calls)[chatId], c)
         == Coalesce(LastPresent(ArgColumn(calls, c)), if chatId in rows then Cell(rows[chatId], c) else None)
    ensures ApplyAll(rows, chatId, calls)[chatId].firstSeen
         == if chatId in rows then rows[chatId].firstSeen else calls[0].now
    ensures ApplyAll(rows, chatId, calls)[chatId].lastTouch == calls[|calls| - 1].now
  {
    var n := |calls|;
    var init := calls[..n - 1];
    var last := calls[n - 1];
    assert ArgColumn(calls, c)[..n - 1] == ArgColumn(init, c);
    if init == [] {
      assert ApplyAll(rows, chatId, init) == rows;
    } else {
      CoalescingLaw(rows, chatId, init, c);
      assert init[0] == calls[0];
    }
  }

  /** Upserts of one chat leave every other row as it was. */
  lemma {:induction false} ApplyAllFrame(rows: map<ChatId, Row>, chatId: ChatId, calls: seq<Call>, other: ChatId)
    requires other != chatId
    ensures other in ApplyAll(rows, chatId, calls) <==> other in rows
    ensures other in rows ==> ApplyAll(rows, chatId, calls)[other] == rows[other]
  {
    if calls != [] {
      ApplyAllFrame(rows, chatId, calls[..|calls| - 1], other);
    }
  }

  // ---------------------------------------------------------------------
  // Strategies and the referral argument of /start

  datatype StrategyInfo = StrategyInfo(name: string, audience: string, channel: string, copyLink: string)

  /** `STRATEGIES`. */
  const Strategies: map<string, StrategyInfo> := map[
    "st50" := StrategyInfo("Steady Trading 50", "Accounts under $500",
                           "https://t.me/steadytradinggold",
                           "https://vantageapp.onelink.me/qaPD?deep_link_value=DQJC6YGBLQIAA==="),
    "st500" := StrategyInfo("Steady Trading 500", "Accounts over $500",
                            "https://t.me/steadytradingteam",
                            "https://vantageapp.onelink.me/qaPD?deep_link_value=DPTCPDWZWAIAA===")]

  /** The two strategies, with the texts and links `choose_strategy` shows. */
  lemma StrategiesContents()
    ensures Strategies.Keys == {"st50", "st500"}
    ensures Strategies["st50"].name == "Steady Trading 50" && Strategies["st50"].audience == "Accounts under $500"
    ensures Strategies["st500"].name == "Steady Trading 500" && Strategies["st500"].audience == "Accounts over $500"
  {
  }

  datatype Referral = Referral(source: string, strategy: Option<string>)

  /**
   * The referral parse at the top of `start`: source "organic" and no
   * strategy by default; with an argument, its lower-cased first word is
   * searched for "meta", then "tiktok" (which wins), then "st50", then
   * "st500" (which wins, although it also contains "st50").
   */
  function ParseReferral(args: seq<string>): (ref: Referral)
    ensures args == [] ==> ref == Referral("organic", None)
    ensures args != [] ==> (ref.source == "tiktok" <==> Contains(Lower(args[0]), "tiktok"))
    ensures args != [] ==> (ref.source == "meta" <==> Contains(Lower(args[0]), "meta") && !Contains(Lower(args[0]), "tiktok"))
    ensures ref.source in {"organic", "meta", "tiktok"}
    ensures args != [] ==> (ref.strategy == Some("st500") <==> Contains(Lower(args[0]), "st500"))
    ensures args != [] ==> (ref.strategy == Some("st50") <==> Contains(Lower(args[0]), "st50") && !Contains(Lower(args[0]), "st500"))
    ensures args != [] ==> (ref.strategy.None? <==> !Contains(Lower(args[0]), "st50"))
    ensures ref.strategy.Some? ==> ref.strategy.value in Strategies
  {
    if args == [] then Referral("organic", None)
    else
      var arg := Lower(args[0]);
      var source := if Contains(arg, "meta") then "meta" else "organic";
      var source := if Contains(arg, "tiktok") then "tiktok" else source;
      var strategy := if Contains(arg, "st50") then Some("st50") else None;
      var strategy := if Contains(arg, "st500") then Some("st500") else strategy;
      assert Contains(arg, "st500") ==> Contains(arg, "st50") by {
        assert "st50" + "0" == "st500";
        if Contains(arg, "st500") {
          ContainsPrefix(arg, "st50", "0");
        }
      }
      Referral(source, strategy)
  }

  /**
   * Python lower-cases the KELVIN SIGN to the ASCII letter `k`, so a
   * referral argument spelled with it still counts as TikTok.
   */
  lemma KelvinSignReferral()
    ensures ParseReferral(["TI" + [KelvinSign] + "TO" + [KelvinSign]]).source == "tiktok"
  {
    var arg := "TI" + [KelvinSign] + "TO" + [KelvinSign];
    assert Lower(arg) == "tiktok";
    ContainsAt(Lower(arg), "tiktok", 0);
  }

  /** A string lacking one of the characters of `t` does not contain `t`. */
  lemma MissingCharNotContained(s: string, t: string, j: nat)
    requires j < |t|
    requires forall i :: 0 <= i < |s| ==> s[i] != t[j]
    ensures !Contains(s, t)
  {
    forall i | 0 <= i <= |s| - |t|
      ensures !OccursAt(s, t, i)
    {
      assert s[i..i + |t|][j] == s[i + j];
    }
  }

  // ---------------------------------------------------------------------
  // Handlers

  /** The messages the handlers send, as tags. */
  datatype Reply =
    | AskAccountSize                    // greeting with the "Under $500" / "Over $500" buttons
    | StrategyChosen(info: StrategyInfo) // the chosen strategy's name, audience and links
    | CopyingActive                     // "Copying is now active."
    | StatsConnected                    // the owner's stats answer

  /** The upsert `start` makes: stage "start", the parsed source (never `None`), the first name and the parsed strategy. */
  function StartArgs(firstName: string, args: seq<string>): (u: UpsertArgs)
    ensures u.stage == Some("start")
    ensures u.source.Some? && u.source.value in {"organic", "meta", "tiktok"}
    ensures u.name == Some(firstName)
    ensures args == [] ==> u.source == Some("organic") && u.strategy.None?
    ensures u.strategy.Some? ==> u.strategy.value in Strategies
  {
    UpsertArgs(Some("start"), Some(ParseReferral(args).source), Some(firstName), ParseReferral(args).strategy)
  }

  /** `start`: parse the referral argument and upsert the lead. */
  method Start(table: LeadsTable, chatId: ChatId, firstName: string, args: seq<string>, now: int)
    returns (reply: Reply)
    modifies table
    ensures table.rows == Upserted(old(table.rows), chatId, StartArgs(firstName, args), now)
    ensures reply == AskAccountSize
  {
    var referral := ParseReferral(args);
    table.UpsertLead(chatId, UpsertArgs(Some("start"), Some(referral.source), Some(firstName), referral.strategy), now);
    reply := AskAccountSize;
  }

  /**
   * What `start` leaves in the row: stage "start", the parsed source, the
   * first name, and the parsed strategy or, when the argument names none,
   * the strategy stored before. In particular a later `/start` without an
   * argument resets the source to "organic" while keeping the strategy.
   */
  lemma StartRow(rows: map<ChatId, Row>, chatId: ChatId, firstName: string, args: seq<string>, now: int)
    ensures var row := Upserted(rows, chatId, StartArgs(firstName, args), now)[chatId];
            && row.stage == Some("start")
            && row.source == Some(ParseReferral(args).source)
            && row.name == Some(firstName)
            && row.strategy == Coalesce(ParseReferral(args).strategy, GetLead(rows, chatId))
    ensures args == [] ==>
            && Upserted(rows, chatId, StartArgs(firstName, args), now)[chatId].source == Some("organic")
            && GetLead(Upserted(rows, chatId, StartArgs(firstName, args), now), chatId) == GetLead(rows, chatId)
  {
    var r := Upserted(rows, chatId, StartArgs(firstName, args), now);
    assert Cell(r[chatId], StageColumn) == r[chatId].stage;
    assert Cell(r[chatId], SourceColumn) == r[chatId].source;
    assert Cell(r[chatId], NameColumn) == r[chatId].name;
    assert Cell(r[chatId], StrategyColumn) == r[chatId].strategy;
  }

  /** The argument `st500_meta` parses to source "meta" and strategy "st500". */
  lemma ParseSt500Meta()
    ensures ParseReferral(["st500_meta"]) == Referral("meta", Some("st500"))
  {
    St500MetaTags();
    assert ["st500_meta"][0] == "st500_meta";
  }

  /** `st500_meta` is already lower-case, and contains "meta" and "st500" but not "tiktok". */
  lemma St500MetaTags()
    ensures Lower("st500_meta") == "st500_meta"
    ensures Contains("st500_meta", "meta") && Contains("st500_meta", "st500") && !Contains("st500_meta", "tiktok")
  {
    LowerKeepsLowercase("st500_meta");
    St500MetaContains();
    MissingCharNotContained("st500_meta", "tiktok", 2);
  }

  lemma St500MetaContains()
    ensures Contains("st500_meta", "meta") && Contains("st500_meta", "st500")
  {
    var arg := "st500_meta";
    assert arg[6..10] == "meta" && arg[0..5] == "st500";
    ContainsAt(arg, "meta", 6);
    ContainsAt(arg, "st500", 0);
  }

  /** A new user arriving through `/start st500_meta` gets source "meta", strategy "st500" and stage "start". */
  lemma StartScenarioSt500Meta(rows: map<ChatId, Row>, chatId: ChatId, firstName: string, now: int)
    requires chatId !in rows
    ensures Upserted(rows, chatId, StartArgs(firstName, ["st500_meta"]), now)[chatId]
         == Row(now, now, Some("start"), Some("meta"), Some(firstName), Some("st500"))
  {
    ParseSt500Meta();
    var r := Upserted(rows, chatId, StartArgs(firstName, ["st500_meta"]), now);
    assert Cell(r[chatId], StageColumn) == r[chatId].stage;
    assert Cell(r[chatId], SourceColumn) == r[chatId].source;
    assert Cell(r[chatId], NameColumn) == r[chatId].name;
    assert Cell(r[chatId], StrategyColumn) == r[chatId].strategy;
  }

  /** The upsert `choose_strategy` makes: stage "strategy_selected" and the chosen strategy. */
  function ChooseArgs(key: string): (u: UpsertArgs)
    ensures u.stage == Some("strategy_selected")
    ensures u.strategy == Some(key)
    ensures u.source.None? && u.name.None?
  {
    UpsertArgs(Some("strategy_selected"), None, None, Some(key))
  }

  /** The upsert `copied` makes: stage "copied" only. */
  function CopiedArgs(): (u: UpsertArgs)
    ensures u.stage == Some("copied")
    ensures u.source.None? && u.name.None? && u.strategy.None?
  {
    UpsertArgs(Some("copied"), None, None, None)
  }

  /** `choose_strategy`: record the choice, then show the strategy's details from `STRATEGIES`. */
  method ChooseStrategy(table: LeadsTable, chatId: ChatId, key: string, now: int) returns (reply: Reply)
    requires key in Strategies
    modifies table
    ensures table.rows == Upserted(old(table.rows), chatId, ChooseArgs(key), now)
    ensures reply == StrategyChosen(Strategies[key])
  {
    table.UpsertLead(chatId, UpsertArgs(Some("strategy_selected"), None, None, Some(key)), now);
    reply := StrategyChosen(Strategies[key]);
  }

  /** `copied`: mark the lead "copied", whether or not it ever chose a strategy. */
  method Copied(table: LeadsTable, chatId: ChatId, now: int) returns (reply: Reply)
    modifies table
    ensures table.rows == Upserted(old(table.rows), chatId, CopiedArgs(), now)
    ensures reply == CopyingActive
  {
    table.UpsertLead(chatId, UpsertArgs(Some("copied"), None, None, None), now);
    reply := CopyingActive;
  }

  /** "I enabled copying" needs no strategy: the stage becomes "copied" and the strategy stays what it was (possibly none). */
  lemma CopiedNeedsNoStrategy(rows: map<ChatId, Row>, chatId: ChatId, now: int)
    ensures Upserted(rows, chatId, CopiedArgs(), now)[chatId].stage == Some("copied")
    ensures GetLead(Upserted(rows, chatId, CopiedArgs(), now), chatId) == GetLead(rows, chatId)
  {
    var r := Upserted(rows, chatId, CopiedArgs(), now);
    assert Cell(r[chatId], StageColumn) == r[chatId].stage;
    assert Cell(r[chatId], StrategyColumn) == r[chatId].strategy;
  }

  // ---------------------------------------------------------------------
  // Callback routing (the CallbackQueryHandler patterns in `main`)

  datatype Handler = ToChooseStrategy | ToCopied | NoRoute

  /**
   * `re.match("^w$", data)`. Without MULTILINE, Python's `$` matches at
   * the end of the string and also just before a newline that ends it.
   */
  function DollarMatch(data: string, w: string): (m: bool)
    ensures m <==> |w| <= |data| && data[..|w|] == w && (|data| == |w| || data[|w|..] == "\n")
  {
    assert data == w + "\n" ==> data[..|w|] == w && data[|w|..] == "\n";
    assert |w| <= |data| && (|data| == |w| || data[|w|..] == "\n") ==> data == data[..|w|] + data[|w|..];
    data == w || data == w + "\n"
  }

  /** The routing as written: patterns "^st50$|^st500$" and "^copied$" under `re.match`. */
  function RouteAsWritten(data: string): (r: Handler)
    ensures r == ToChooseStrategy <==> data in {"st50", "st500", "st50\n", "st500\n"}
    ensures r == ToCopied <==> data in {"copied", "copied\n"}
  {
    assert "st50" + "\n" == "st50\n" && "st500" + "\n" == "st500\n" && "copied" + "\n" == "copied\n";
    if DollarMatch(data, "st50") || DollarMatch(data, "st500") then ToChooseStrategy
    else if DollarMatch(data, "copied") then ToCopied
    else NoRoute
  }

  /** `choose_strategy` as written, on whatever data its pattern lets through: the upsert commits, then `STRATEGIES[data]` is looked up (`None` is the KeyError). */
  function ChooseStrategyAsWritten(rows: map<ChatId, Row>, chatId: ChatId, data: string, now: int)
    : (r: (map<ChatId, Row>, Option<StrategyInfo>))
    ensures r.0 == Upserted(rows, chatId, ChooseArgs(data), now)
    ensures r.1.Some? <==> data in Strategies
  {
    var after := Upserted(rows, chatId, ChooseArgs(data), now);
    (after, if data in Strategies then Some(Strategies[data]) else None)
  }

  /**
   * The pattern admits the callback data "st50\n", which is not a key of
   * `STRATEGIES`: the handler stores the strategy "st50\n" and then fails
   * on the lookup.
   */
  lemma TrailingNewlinePassesPattern(rows: map<ChatId, Row>, chatId: ChatId, now: int)
    ensures RouteAsWritten("st50\n") == ToChooseStrategy
    ensures "st50\n" !in Strategies
    ensures ChooseStrategyAsWritten(rows, chatId, "st50\n", now).1.None?
    ensures GetLead(ChooseStrategyAsWritten(rows, chatId, "st50\n", now).0, chatId) == Some("st50\n")
  {
    var r := Upserted(rows, chatId, ChooseArgs("st50\n"), now);
    assert Cell(r[chatId], StrategyColumn) == r[chatId].strategy;
  }

  /** The routing with whole-string patterns (`re.fullmatch`, or `\Z` for `$`). */
  function RouteCallback(data: string): (r: Handler)
    ensures r == ToChooseStrategy ==> data in Strategies
    ensures r == ToChooseStrategy <==> data in {"st50", "st500"}
    ensures r == ToCopied <==> data == "copied"
  {
    if data == "st50" || data == "st500" then ToChooseStrategy
    else if data == "copied" then ToCopied
    else NoRoute
  }

  /** The two routings differ only on data that ends in a newline. */
  lemma RoutesAgreeWithoutNewline(data: string)
    requires data == [] || data[|data| - 1] != '\n'
    ensures RouteCallback(data) == RouteAsWritten(data)
  {
    if data != [] {
      assert ("st50" + "\n")[4] == '\n' && ("st500" + "\n")[5] == '\n' && ("copied" + "\n")[6] == '\n';
    }
  }

  /** Dispatch of a button press: every strategy the handler is given is a key of `STRATEGIES`. */
  method OnCallback(table: LeadsTable, chatId: ChatId, data: string, now: int) returns (reply: Option<Reply>)
    modifies table
    ensures RouteCallback(data) == ToChooseStrategy ==>
      && table.rows == Upserted(old(table.rows), chatId, ChooseArgs(data), now)
      && reply == Some(StrategyChosen(Strategies[data]))
    ensures RouteCallback(data) == ToCopied ==>
      && table.rows == Upserted(old(table.rows), chatId, CopiedArgs(), now)
      && reply == Some(CopyingActive)
    ensures RouteCallback(data) == NoRoute ==> table.rows == old(table.rows) && reply.None?
  {
    var route := RouteCallback(data);
    match route {
      case ToChooseStrategy =>
        var r := ChooseStrategy(table, chatId, data, now);
        reply := Some(r);
      case ToCopied =>
        var r := Copied(table, chatId, now);
        reply := Some(r);
      case NoRoute =>
        reply := None;
    }
  }

  /** Every stored strategy is a key of `STRATEGIES`, so `get_lead` only ever returns such a key or `None`. */
  ghost predicate StrategiesKnown(rows: map<ChatId, Row>) {
    forall k :: k in rows && rows[k].strategy.Some? ==> rows[k].strategy.value in Strategies
  }

  /** `start`, a routed `choose_strategy` and `copied` all keep every stored strategy a known one. */
  lemma HandlersKeepStrategiesKnown(rows: map<ChatId, Row>, chatId: ChatId, firstName: string, args: seq<string>, data: string, now: int)
    requires StrategiesKnown(rows)
    ensures StrategiesKnown(Upserted(rows, chatId, StartArgs(firstName, args), now))
    ensures RouteCallback(data) == ToChooseStrategy ==> StrategiesKnown(Upserted(rows, chatId, ChooseArgs(data), now))
    ensures StrategiesKnown(Upserted(rows, chatId, CopiedArgs(), now))
  {
    UpsertKeepsStrategiesKnown(rows, chatId, StartArgs(firstName, args), now);
    if RouteCallback(data) == ToChooseStrategy {
      UpsertKeepsStrategiesKnown(rows, chatId, ChooseArgs(data), now);
    }
    UpsertKeepsStrategiesKnown(rows, chatId, CopiedArgs(), now);
  }

  /** While every stored strategy is known, whatever `get_lead` returns is a key of `STRATEGIES` or `None`. */
  lemma KnownStrategiesGetLead(rows: map<ChatId, Row>, chatId: ChatId)
    requires StrategiesKnown(rows)
    ensures GetLead(rows, chatId).Some? ==> GetLead(rows, chatId).value in Strategies
  {
  }

  lemma UpsertKeepsStrategiesKnown(rows: map<ChatId, Row>, chatId: ChatId, u: UpsertArgs, now: int)
    requires StrategiesKnown(rows)
    requires u.strategy.Some? ==> u.strategy.value in Strategies
    ensures StrategiesKnown(Upserted(rows, chatId, u, now))
  {
    var r := Upserted(rows, chatId, u, now);
    assert Cell(r[chatId], StrategyColumn) == r[chatId].strategy;
    forall k | k in r && r[k].strategy.Some? ensures r[k].strategy.value in Strategies {
      if k == chatId && chatId in rows {
        assert Cell(rows[chatId], StrategyColumn) == rows[chatId].strategy;
      }
    }
  }

  // ---------------------------------------------------------------------
  // stats

  /** `stats`: only the caller whose id equals `OWNER_ID` gets an answer; everyone else gets none. */
  function StatsReply(callerId: int, ownerId: int): (r: Option<Reply>)
    ensures r.Some? ==> callerId == ownerId && r.value == StatsConnected
  {
    if callerId != ownerId then None else Some(StatsConnected)
  }

  /** No caller but the owner ever gets an answer, whatever the table holds; with the default owner id 0 that is nobody with a real user id. */
  lemma StatsOwnerOnly(callerId: int, ownerId: int)
    ensures StatsReply(callerId, ownerId).Some? <==> callerId == ownerId
  {
  }
}

=== FILE: pystr.dfy ===
/**
 * The handful of Python string builtins the bot relies on: `str.isspace`
 * and `str.strip()`, `str.lower()`, the substring test `t in s`, and
 * `str(n)` for integers (used to build job names such as `fu30_<chat id>`).
 */
module PyStr {

  /** The characters for which Python's `str.isspace()` holds; `strip()` with no argument removes exactly these. */
  predicate IsSpace(c: char)
    ensures c == ' ' || c == '\t' || c == '\n' || c == '\r' ==> IsSpace(c)
    ensures IsSpace(c) ==> !('A' <= c <= 'Z') && !('a' <= c <= 'z') && !('0' <= c <= '9') && c != '_' && c != '/'
  {
    || c == ' '
    || ('\t' <= c <= '\r')
    || ('\U{1C}' <= c <= '\U{1F}')
    || c == '\U{85}' || c == '\U{A0}' || c == '\U{1680}'
    || ('\U{2000}' <= c <= '\U{200A}')
    || c == '\U{2028}' || c == '\U{2029}' || c == '\U{202F}' || c == '\U{205F}' || c == '\U{3000}'
  }

  predicate AllSpace(s: string) {
    forall i :: 0 <= i < |s| ==> IsSpace(s[i])
  }

  /** `s.lstrip()`: the longest suffix of `s` that does not start with whitespace. */
  function LStrip(s: string): (r: string)
    ensures |r| <= |s| && r == s[|s| - |r|..]
    ensures r == [] || !IsSpace(r[0])
  {
    if |s| > 0 && IsSpace(s[0]) then LStrip(s[1..]) else s
  }

  /** `s.rstrip()`: the longest prefix of `s` that does not end with whitespace. */
  function RStrip(s: string): (r: string)
    ensures |r| <= |s| && r == s[..|r|]
    ensures r == [] || !IsSpace(r[|r| - 1])
  {
    if |s| > 0 && IsSpace(s[|s| - 1]) then RStrip(s[..|s| - 1]) else s
  }

  /** `s.strip()`: no longer than `s`, with no whitespace at either end. */
  function Strip(s: string): (r: string)
    ensures |r| <= |s|
    ensures r == [] || (!IsSpace(r[0]) && !IsSpace(r[|r| - 1]))
  {
    RStrip(LStrip(s))
  }

  /** The KELVIN SIGN, which Python lower-cases to the ASCII letter `k`. */
  const KelvinSign: char := '\U{212A}'

  /**
   * `c.lower()` where the result can be ASCII: the letters A-Z and the
   * KELVIN SIGN become lower-case ASCII letters; every other character is kept.
   */
  function LowerChar(c: char): (l: char)
    ensures !('A' <= l <= 'Z') && l != KelvinSign
    ensures l != c <==> ('A' <= c <= 'Z' || c == KelvinSign)
    ensures 'A' <= c <= 'Z' ==> 'a' <= l <= 'z' && l as int - 'a' as int == c as int - 'A' as int
    ensures c == KelvinSign ==> l == 'k'
    ensures IsSpace(l) <==> IsSpace(c)
  {
    if 'A' <= c <= 'Z' then (c as int - 'A' as int + 'a' as int) as char
    else if c == KelvinSign then 'k'
    else c
  }

  /** `s.lower()`, character by character. */
  function Lower(s: string): (r: string)
    ensures |r| == |s|
    ensures forall i :: 0 <= i < |s| ==> r[i] == LowerChar(s[i])
    ensures forall i :: 0 <= i < |r| ==> !('A' <= r[i] <= 'Z')
    ensures forall i :: 0 <= i < |s| && !('A' <= s[i] <= 'Z') && s[i] != KelvinSign ==> r[i] == s[i]
  {
    seq(|s|, i requires 0 <= i < |s| => LowerChar(s[i]))
  }

  /** A string with no upper-case ASCII letter and no KELVIN SIGN is its own `lower()`. */
  lemma LowerKeepsLowercase(s: string)
    requires forall i :: 0 <= i < |s| ==> !('A' <= s[i] <= 'Z') && s[i] != KelvinSign
    ensures Lower(s) == s
  {
  }

  /** Python's `t in s` for strings: `t` occurs in `s` as a contiguous substring. */
  function Contains(s: string, t: string): (b: bool)
    ensures b ==> |t| <= |s|
    ensures t == [] ==> b
    ensures |t| == |s| ==> (b <==> s == t)
  {
    assert OccursAt(s, [], 0);
    assert |t| == |s| ==> s[0..|t|] == s && (OccursAt(s, t, 0) <==> s == t);
    exists i | 0 <= i <= |s| - |t| :: OccursAt(s, t, i)
  }

  /** `t` occurs in `s` starting at index `i`. */
  predicate OccursAt(s: string, t: string, i: int) {
    0 <= i && i + |t| <= |s| && s[i..i + |t|] == t
  }

  function DigitChar(d: nat): (c: char)
    requires d < 10
    ensures '0' <= c <= '9'
  {
    ('0' as int + d) as char
  }

  /** `str(n)` for a non-negative integer: its decimal digits, most significant first. */
  function NatToString(n: nat): (r: string)
    ensures 1 <= |r|
    ensures n >= 10 ==> 2 <= |r|
    ensures forall i :: 0 <= i < |r| ==> '0' <= r[i] <= '9'
  {
    if n < 10 then [DigitChar(n)] else NatToString(n / 10) + [DigitChar(n % 10)]
  }

  /** `str(n)` for any integer: a leading minus sign for negative values. */
  function IntToString(n: int): (r: string)
    ensures |r| >= 1
    ensures r[0] == '-' <==> n < 0
    ensures forall i :: 1 <= i < |r| ==> '0' <= r[i] <= '9'
  {
    if n < 0 then "-" + NatToString(-n) else NatToString(n)
  }

  // ---------------------------------------------------------------------
  // strip()

  /** `lstrip()` removes whitespace only. */
  lemma {:induction false} LStripRemovesOnlySpace(s: string)
    ensures AllSpace(s[..|s| - |LStrip(s)|])
  {
    if |s| > 0 && IsSpace(s[0]) {
      LStripRemovesOnlySpace(s[1..]);
      var k := |s| - |LStrip(s)|;
      assert s[..k] == [s[0]] + s[1..][..k - 1];
    } else {
      assert |s| - |LStrip(s)| == 0;
    }
  }

  /** `rstrip()` removes whitespace only. */
  lemma {:induction false} RStripRemovesOnlySpace(s: string)
    ensures AllSpace(s[|RStrip(s)|..])
  {
    if |s| > 0 && IsSpace(s[|s| - 1]) {
      RStripRemovesOnlySpace(s[..|s| - 1]);
      var k := |RStrip(s)|;
      assert s[k..] == s[..|s| - 1][k..] + [s[|s| - 1]];
    } else {
      assert |RStrip(s)| == |s|;
    }
  }

  /** `strip()` leaves nothing exactly of a string that is all whitespace. */
  lemma StripEmptyIffAllSpace(s: string)
    ensures Strip(s) == [] <==> AllSpace(s)
  {
    LStripRemovesOnlySpace(s);
    assert s[..|s|] == s;
    RStripRemovesOnlySpace(LStrip(s));
    assert LStrip(s)[0..] == LStrip(s);
  }

  lemma {:induction false} LStripSpacePrefix(pre: string, s: string)
    requires AllSpace(pre)
    ensures LStrip(pre + s) == LStrip(s)
  {
    if pre == [] {
      assert pre + s == s;
    } else {
      assert (pre + s)[0] == pre[0];
      assert (pre + s)[1..] == pre[1..] + s;
      LStripSpacePrefix(pre[1..], s);
    }
  }

  lemma {:induction false} RStripSpaceSuffix(s: string, post: string)
    requires AllSpace(post)
    ensures RStrip(s + post) == RStrip(s)
  {
    if post == [] {
      assert s + post == s;
    } else {
      var n := |post|;
      assert (s + post)[|s + post| - 1] == post[n - 1];
      assert (s + post)[..|s + post| - 1] == s + post[..n - 1];
      RStripSpaceSuffix(s, post[..n - 1]);
    }
  }

  /** Left-stripping a concatenation only reaches into `t` when `s` is all whitespace. */
  lemma {:induction false} LStripAppend(s: string, t: string)
    ensures LStrip(s) != [] ==> LStrip(s + t) == LStrip(s) + t
    ensures LStrip(s) == [] ==> LStrip(s + t) == LStrip(t)
  {
    if s == [] {
      assert s + t == t;
    } else if IsSpace(s[0]) {
      assert (s + t)[1..] == s[1..] + t;
      LStripAppend(s[1..], t);
    }
  }

  /** Whitespace around a message never changes what `strip()` leaves. */
  lemma StripIgnoresPadding(pre: string, s: string, post: string)
    requires AllSpace(pre) && AllSpace(post)
    ensures Strip(pre + s + post) == Strip(s)
  {
    assert pre + s + post == pre + (s + post);
    LStripSpacePrefix(pre, s + post);
    LStripAppend(s, post);
    if LStrip(s) != [] {
      RStripSpaceSuffix(LStrip(s), post);
    } else {
      LStripSpacePrefix(post, []);
      assert post + [] == post;
    }
  }

  /** A string with no whitespace at either end is its own `strip()`. */
  lemma StripTrimmed(s: string)
    requires s == [] || (!IsSpace(s[0]) && !IsSpace(s[|s| - 1]))
    ensures Strip(s) == s
  {
  }

  // ---------------------------------------------------------------------
  // lower()

  lemma {:induction false} LStripLower(s: string)
    ensures LStrip(Lower(s)) == Lower(LStrip(s))
  {
    if s != [] {
      if IsSpace(s[0]) {
        assert Lower(s)[1..] == Lower(s[1..]);
        LStripLower(s[1..]);
      }
    }
  }

  lemma {:induction false} RStripLower(s: string)
    ensures RStrip(Lower(s)) == Lower(RStrip(s))
  {
    if s != [] {
      if IsSpace(s[|s| - 1]) {
        assert Lower(s)[..|s| - 1] == Lower(s[..|s| - 1]);
        RStripLower(s[..|s| - 1]);
      }
    }
  }

  /** Lower-casing and stripping commute, since no letter is whitespace. */
  lemma StripLowerCommute(s: string)
    ensures Strip(Lower(s)) == Lower(Strip(s))
  {
    LStripLower(s);
    RStripLower(LStrip(s));
  }

  lemma LowerIdempotent(s: string)
    ensures Lower(Lower(s)) == Lower(s)
  {
  }

  /** Lower-casing keeps a string free of whitespace at its ends. */
  lemma LowerTrimmed(x: string)
    requires x == [] || (!IsSpace(x[0]) && !IsSpace(x[|x| - 1]))
    ensures Lower(x) == [] || (!IsSpace(Lower(x)[0]) && !IsSpace(Lower(x)[|x| - 1]))
  {
    if x != [] {
      assert Lower(x)[0] == LowerChar(x[0]);
      assert Lower(x)[|x| - 1] == LowerChar(x[|x| - 1]);
    }
  }

  /** `s.strip().lower()` is a fixed point of `strip().lower()`. */
  lemma StripLowerIdempotent(s: string)
    ensures Lower(Strip(Lower(Strip(s)))) == Lower(Strip(s))
  {
    var x := Strip(s);
    LowerTrimmed(x);
    StripTrimmed(Lower(x));
    LowerIdempotent(x);
  }

  // ---------------------------------------------------------------------
  // substring test

  /** An occurrence at a known position is an occurrence. */
  lemma ContainsAt(s: string, t: string, i: nat)
    requires i + |t| <= |s| && s[i..i + |t|] == t
    ensures Contains(s, t)
  {
    assert OccursAt(s, t, i);
  }

  /** Whoever contains `t + u` contains `t`: `"st500" in arg` implies `"st50" in arg`. */
  lemma ContainsPrefix(s: string, t: string, u: string)
    requires Contains(s, t + u)
    ensures Contains(s, t)
  {
    var i :| 0 <= i <= |s| - |t + u| && OccursAt(s, t + u, i);
    assert s[i..i + |t|] == (t + u)[..|t|] == t;
    ContainsAt(s, t, i);
  }

  // ---------------------------------------------------------------------
  // str(int)

  lemma DigitCharInjective(a: nat, b: nat)
    requires a < 10 && b < 10 && DigitChar(a) == DigitChar(b)
    ensures a == b
  {
  }

  /** Different numbers print differently. */
  lemma {:induction false} NatToStringInjective(a: nat, b: nat)
    requires NatToString(a) == NatToString(b)
    ensures a == b
  {
    var s := NatToString(a);
    if a < 10 && b < 10 {
      DigitCharInjective(a, b);
    } else if a >= 10 && b >= 10 {
      var n := |s|;
      assert s[n - 1] == DigitChar(a % 10) == DigitChar(b % 10);
      DigitCharInjective(a % 10, b % 10);
      assert s[..n - 1] == NatToString(a / 10) == NatToString(b / 10);
      NatToStringInjective(a / 10, b / 10);
    }
  }

  /** Python's `str` is injective on integers, so `f"fu30_{chat_id}"` names one chat only. */
  lemma IntToStringInjective(a: int, b: int)
    requires IntToString(a) == IntToString(b)
    ensures a == b
  {
    var s := IntToString(a);
    if a < 0 {
      assert s[1..] == NatToString(-a) == NatToString(-b);
      NatToStringInjective(-a, -b);
    } else {
      NatToStringInjective(a, b);
    }
  }
}

=== FILE: wrappers.dfy ===
/** Optional values: Python's `None` versus a present value, and SQL's NULL. */
module Wrappers {

  datatype Option<+T> = None | Some(value: T) {

    /** The stored value, or `default` when there is none (Python's `d.get(key, default)`). */
    function GetOr(default: T): T {
      match this
      case Some(v) => v
      case None => default
    }
  }
}
